=== FILE: README.md ===
# Panel axis algebra, modelled in Dafny

This project models the core of the pandas three-dimensional `Panel`
(`pandas/core/panel.py`): a cube of cells addressed by three labelled axes,
`items`, `major_axis` and `minor_axis`, in that storage order. Each module
follows one part of the source:

- `axes.dfy` (`Axes`): the axis registry. It holds the canonical names and
  their positions, the `major`/`minor` aliases, the resolver that accepts a
  name, an alias or a position, and the plane axes of each axis.
- `panel.dfy` (`Panels`): the panel and frame datatypes, `shape`, item
  lookup, and the frame reindex the panel code relies on.
- `reshape.dfy` (`Reshape`): `shift`, `swapaxes` and `transpose`. Axis
  permutations are modelled once and shared by both.
- `reindex.dfy` (`Reindexing`): indexers, the per-axis reindex, the fused
  `_reindex_multi`, `reindex` with its argument rules, and `_get_join_index`.
- `cleaning.dfy` (`Cleaning`): `dropna` (cross-sections, the present-cell
  mask, `how`) and `fillna` (its argument checks and the value fill).
- `longform.dfy` (`LongFormat`): `to_frame`, which stacks the panel into a
  long frame with major/minor codes, optionally keeping only complete rows.
- `combine.dfy` (`Combining`): `_combine` with a scalar, a frame or a
  panel, and the scalar-only `_arith_method`.
- `assign.dfy` (`Assignment`): `__setitem__` with a frame, an array or a
  scalar.
- `construct.dfy` (`Construction`): `_extract_axis` and
  `_ensure_like_indices`.
- `reduce.dfy` (`Reductions`): the orientation of the frame `_reduce`
  returns.
- `results.dfy`, `seqs.dfy`, `labels.dfy`: the error type, sequence
  lemmas, and the `Index` operations the panel uses (lookup, union,
  intersection, default range, `np.unique`, `np.tile`, `np.repeat`).

Modelling choices:

- A cell is an `Option<V>`, where `None` stands for NaN.
- Arithmetic is any cell function `(Option<V>, Option<V>) -> Option<V>`.
- A reduction is any function from a line of cells to a cell.
- Labels are integers or strings. `np.unique` orders them with integers
  first, integers numerically and strings by character code.
- Every raised exception is an `Err` value of the matching kind, and the
  fixed messages are kept. Formatted parts of a message, such as a type
  name, are not reproduced.

Most contracts hold for every shaped panel. The lemmas that look a cell
back up by its own labels ask for axes without repeated labels (`Valid`).
The reindex functions accept repeated labels on the searched axis and take
a label's first position there. pandas raises instead in that case, as
"## Left out" records.

## Model

| member | source | states |
|---|---|---|
| Axes.Name | pandas/core/panel.py:149-155 | the canonical name of an axis is the entry of the axis order at that axis's number |
| Axes.Resolve | pandas/core/panel.py:149-155 | a resolved axis is designated by the key (by name, by the `major`/`minor` alias, or by position); a failure means no axis is designated, and it raises ValueError |
| Axes.ResolveRoundTrip | pandas/core/panel.py:149-155 | names and numbers resolve back to their axis, and `major`/`minor` resolve like the long names |
| Axes.PlaneAxes | pandas/core/panel.py:470-486 | the plane axes differ from the fixed axis and from each other; for items they are (major, minor); otherwise the columns are the items |
| Axes.SliceRole | pandas/core/panel.py:156-159 | only the items axis has no role in a 2-D slice; the major axis is a slice's `index` and the minor axis its `columns` |
| Panels.Shape | pandas/core/panel.py:308-309 | `shape` is the triple of axis lengths and agrees with the grid's extents |
| Panels.GetItem | pandas/core/panel.py:616-618 | an item's frame is indexed by the major axis, with the minor axis as columns, and holds that item's plane; an unknown item raises KeyError |
| Panels.FrameReindex | pandas/core/panel.py:884-888 | a reindexed frame has the requested labels; a cell is the old cell at the first positions of its labels, or missing when a label is absent |
| Panels.FrameReindexIdentity | pandas/core/panel.py:884-888 | reindexing a frame to its own labels gives it back |
| Reshape.Bound | pandas/core/panel.py:1322-1329 | a Python slice bound is clamped to the sequence and counts from the end when negative |
| Reshape.ShiftWindows | pandas/core/panel.py:1322-1329 | the value slicer and the label slicer cut windows of equal length, offset by the lag |
| Reshape.Shift | pandas/core/panel.py:1303-1341 | shifting major or minor by `lags` keeps the items and the other axis; the shifted axis and the values are both cut to the overlap, and each value comes from `lags` positions back; any other axis raises ValueError("Invalid axis") |
| Reshape.ShiftMovesByLags | pandas/core/panel.py:1322-1336 | the cell at major position j reappears under the label that sat `lags` positions later |
| Reshape.ShiftZero | pandas/core/panel.py:1325-1326 | a zero shift returns the panel unchanged |
| Reshape.Inverse | pandas/core/panel.py:1113-1120 | the inverse of an axis permutation undoes it on both sides |
| Reshape.Permute | pandas/core/panel.py:1119-1120 | a permuted panel takes each slot's labels from the source axis, and cell (i, j, k) moves to its permuted position |
| Reshape.PermuteInverse | pandas/core/panel.py:1113-1123 | permuting, then permuting by the inverse, restores the panel |
| Reshape.SwapPerm | pandas/core/panel.py:1071-1074 | the swap mapping exchanges the two axes and fixes the third |
| Reshape.SwapPermSelfInverse | pandas/core/panel.py:1071-1074 | a swap is its own inverse |
| Reshape.SwapAxes | pandas/core/panel.py:1057-1079 | it succeeds exactly when both keys resolve to different axes, and then exchanges their labels while keeping the third, and moves every cell as the swap permutation does (`values.swapaxes`); the same axis twice raises ValueError("Cannot specify the same axis") |
| Reshape.SwapAxesTwice | pandas/core/panel.py:1057-1079 | swapping the same two axes twice restores the panel |
| Reshape.AxisArguments | pandas/core/panel.py:1104-1111 | keyword axes are taken as given and missing ones from the positional arguments in order; too few raises ValueError("not enough arguments specified to transpose!") |
| Reshape.TransposePerm | pandas/core/panel.py:1113-1117 | too few arguments raise the "not enough arguments" ValueError; an unresolvable argument raises ValueError; three resolvable arguments give their permutation when pairwise distinct and ValueError("Must specify 3 unique axes") otherwise; each slot of the permutation is designated by its argument |
| Reshape.Transpose | pandas/core/panel.py:1081-1123 | it succeeds exactly when the arguments resolve to three distinct axes; each new axis carries the labels of the axis its argument names, and the cells move as that permutation does (`values.transpose`) |
| Reshape.TransposeInverse | pandas/core/panel.py:1081-1123 | positional transpose is the permutation, and transposing by the inverse permutation restores the panel |
| Reshape.TransposePositional | pandas/core/panel.py:1105-1117 | three distinct axis numbers given positionally are read as exactly that permutation |
| Reindexing.Indexer | pandas/core/panel.py:769-771 | the indexer is -1 exactly where a target label is absent, and otherwise the label's first position |
| Reindexing.Take2DMulti | pandas/core/panel.py:782-784 | a taken plane has one row per row index and one column per column index; a -1 on either side gives a missing cell |
| Reindexing.ReindexItems | pandas/core/panel.py:753-756 | reindexing the items keeps the other axes; each new plane is the old plane of its label, or missing when the label is absent |
| Reindexing.ReindexMajor | pandas/core/panel.py:747-748 | reindexing the major axis keeps the other axes and moves rows by label |
| Reindexing.ReindexMinor | pandas/core/panel.py:750-751 | reindexing the minor axis keeps the other axes and moves columns by label |
| Reindexing.ReindexAxis | pandas/core/panel.py:789-818 | reindexing one axis gives it the requested labels and leaves the other two unchanged |
| Reindexing.ReindexAxisIdentity | pandas/core/panel.py:789-818 | reindexing an axis without repeats to its own labels gives the panel back |
| Reindexing.ReindexMulti | pandas/core/panel.py:763-787 | the fused reindex (corrected) has the three requested axes, and every cell is the old cell at those labels, or missing when any label is absent |
| Reindexing.PyIndex | pandas/core/panel.py:782-783 | Python indexing succeeds exactly for -len..len-1, counts negatives from the end, and otherwise raises IndexError |
| Reindexing.GatherPlanes | pandas/core/panel.py:782-784 | `values[ind]` for each indexer entry succeeds exactly when every entry is in Python range, and yields those planes |
| Reindexing.ReindexMultiAsWritten | pandas/core/panel.py:763-787 | as written, the fused reindex fails (IndexError) exactly when the panel has no items but some are requested; an absent item takes the last item's plane; a present item's cells are those of the corrected reindex |
| Reindexing.ReindexMultiCopiesLastItem | pandas/core/panel.py:773-784 | a concrete panel where the as-written reindex copies a value into an absent item's plane, while the corrected one leaves it missing |
| Reindexing.ReindexMultiEmptyRaises | pandas/core/panel.py:782-784 | as written, requesting an item from a panel with no items raises IndexError |
| Reindexing.ReindexMultiSequential | pandas/core/panel.py:742-756 | the fused reindex equals reindexing major, then minor, then items one axis at a time |
| Reindexing.ReindexMultiIdentity | pandas/core/panel.py:763-787 | the fused reindex to the panel's own labels gives it back |
| Reindexing.ReindexMultiWidenRestore | pandas/core/panel.py:763-787 | widening to label supersets and reindexing back restores the panel |
| Reindexing.Reindex | pandas/core/panel.py:711-761 | `reindex` (corrected) fails exactly when no axis is given and `copy` is set, raising ValueError("Must specify at least one axis"); otherwise each axis has the requested labels, or keeps its own |
| Reindexing.ReindexIsGather | pandas/core/panel.py:742-761 | whichever path `reindex` takes, its result is the corrected fused gather on the requested labels; for a new item this differs from the source's fast path, as the Findings row shows |
| Reindexing.JoinIndex | pandas/core/panel.py:1446-1457 | left and right give that panel's major and minor axes; inner holds the labels in both, outer those in either; any other `how` leaves the result unbound |
| Reindexing.JoinIndexNesting | pandas/core/panel.py:1451-1456 | the inner join axes lie in both panels, and both panels' labels lie in the outer ones |
| Cleaning.CountPresent | pandas/core/panel.py:856-866 | a cross-section's present-cell count equals the per-slice size exactly when all its cells are present, and is positive exactly when some is |
| Cleaning.DropMask | pandas/core/panel.py:853-866 | the mask has one entry per position of the axis, true exactly when that cross-section is kept under `how` |
| Cleaning.DropNa | pandas/core/panel.py:836-869 | an unknown axis raises ValueError; otherwise the other axes are kept and the axis becomes a subsequence of itself; on a panel without repeated labels, a label survives exactly when its cross-section is all present (`any` or any other `how`) or has something present (`all`) |
| Cleaning.DropNaSections | pandas/core/panel.py:868-869 | every surviving cross-section is the unchanged cross-section of a kept label |
| Cleaning.SectionOfReindexed | pandas/core/panel.py:868-869 | reindexing an axis moves whole cross-sections by label |
| Cleaning.FillNa | pandas/core/panel.py:915-952 | it fails exactly when both or neither of value and method are given, with the two messages; a method is delegated; a value fills every missing cell and keeps every present one |
| Cleaning.FillValue | pandas/core/panel.py:948-952 | a filled panel keeps its axes and present cells and puts the value in every missing cell |
| Cleaning.FillNaIdempotent | pandas/core/panel.py:948-952 | a second value fill changes nothing |
| Cleaning.FillNaThenDropNa | pandas/core/panel.py:836-952 | after a value fill, `dropna(how='any')` along any axis drops nothing |
| LongFormat.CodesAt | pandas/core/panel.py:1153-1158 | row t of the unfiltered codes has major code t div K and minor code t mod K |
| LongFormat.CompleteGrid | pandas/core/panel.py:1141-1142 | the mask is true at (j, k) exactly when every item has a value there |
| LongFormat.CompleteMaskAt | pandas/core/panel.py:1141-1144 | the raveled mask at t describes the pair (t div K, t mod K) |
| LongFormat.ToFrame | pandas/core/panel.py:1125-1167 | the long frame's levels are the major and minor axes, its columns are the items, and every column has one entry per row |
| LongFormat.RowSource | pandas/core/panel.py:1144-1151 | each long row comes from a raveled position, complete when filtering and the row itself when not |
| LongFormat.ToFrameRow | pandas/core/panel.py:1149-1158 | a long row's codes are its source pair, and its data are that pair's cells, item by item |
| LongFormat.ToFrameRows | pandas/core/panel.py:1125-1167 | every row's codes are in range and its data are the cells at those codes; rows are in strict row-major order |
| LongFormat.ToFrameUnfiltered | pandas/core/panel.py:1145-1158 | without filtering there are N*K rows, and row r has codes (r div K, r mod K) |
| LongFormat.ToFrameFiltered | pandas/core/panel.py:1141-1158 | with filtering every row is complete with present data, and every complete pair appears |
| LongFormat.ToFrameKeepsComplete | pandas/core/panel.py:1131-1133 | a (major, minor) pair observed in every item is kept |
| Combining.CombineScalar | pandas/core/panel.py:876-879 | a scalar is combined into every cell, and the axes are kept |
| Combining.CombineFrame | pandas/core/panel.py:884-900 | an unknown axis raises ValueError; otherwise the axes are kept and each cell is combined with the frame cell at its plane-axis labels |
| Combining.CombinePanel | pandas/core/panel.py:902-913 | the result's axes are the unions of the operands' axes, with labels without repeats kept so; each cell combines the two operands' cells at those labels, a label absent from one operand giving a missing cell there (the corrected reindex) |
| Combining.Combine | pandas/core/panel.py:871-879 | it dispatches on the operand kind, fails only for a frame with a bad axis, and returns nothing for any other operand |
| Combining.ArithMethod | pandas/core/panel.py:92-102 | a non-scalar operand raises ValueError("Simple arithmetic with Panel can only be done with scalar values"); a scalar is combined cell by cell |
| Combining.ConstantLike | pandas/core/panel.py:876-879 | a constant panel has the given axes, with the scalar in every cell |
| Combining.CombinePanelAligned | pandas/core/panel.py:902-913 | with identical axes, combining two panels is cell by cell |
| Combining.CombineScalarAsPanel | pandas/core/panel.py:871-913 | combining with a scalar equals combining with the constant panel of that scalar |
| Combining.CombineFrameAligned | pandas/core/panel.py:884-900 | for an already aligned frame, items pair (j, k), major pairs (k, i) and minor pairs (j, i), as the swapaxes/transpose calls arrange |
| Assignment.FilledPlane | pandas/core/panel.py:640-643 | a filled plane has the item shape, with the scalar everywhere |
| Assignment.ItemPlane | pandas/core/panel.py:632-645 | a frame is reindexed to major/minor; an array must have shape (N, K), or AssertionError; a scalar fills the plane; any other value raises TypeError |
| Assignment.SetPlane | pandas/core/panel.py:647-648 | the key's plane is replaced, or appended as a new item; other items' planes are unchanged |
| Assignment.SetItem | pandas/core/panel.py:632-648 | setting an item fails exactly when its value is rejected; otherwise major/minor are kept, the items gain the key if new, and labels without repeats stay so |
| Assignment.SetItemGetItem | pandas/core/panel.py:632-648 | reading back a set item gives a frame of the set plane |
| Assignment.SetItemOthers | pandas/core/panel.py:632-648 | setting one item leaves every other item's frame as it was |
| Assignment.SetItemTwice | pandas/core/panel.py:632-648 | setting an item twice is the same as setting it once with the second value |
| Construction.FrameAxes | pandas/core/panel.py:1534-1537 | the collected axes are exactly the frames' axes along `axis` |
| Construction.RawLengths | pandas/core/panel.py:1538-1540 | the collected lengths are exactly the raw arrays' lengths along `axis` |
| Construction.CombinedIndex | pandas/core/panel.py:1542-1543 | the combined index holds the labels in all indexes when intersecting, and in any of them otherwise |
| Construction.ExtractAxis | pandas/core/panel.py:1521-1559 | raw arrays of unequal length raise ValueError; a raw length unequal to the frames' combined axis raises AssertionError; otherwise the result is the combined frame axis, or `0..n-1` for raw arrays only, or empty |
| Construction.ExtractAxisLabels | pandas/core/panel.py:1534-1543 | with frames present, the extracted axis holds exactly the labels of some frame (union) or of every frame (intersection) |
| Construction.ExtractAxisRawOnly | pandas/core/panel.py:1545-1554 | raw arrays alone, all of length n, give the default index `0..n-1` |
| Construction.EnsureLikeIndices | pandas/core/panel.py:25-37 | an input with repeats is returned as given; an input without repeats is tiled (times) or repeated (panels) by the number of distinct labels of the other, whatever the other holds; with no repeats in either, both outputs have N_time*N_panel entries and list every (time, panel) combination, panel-major, with both sorted |
| Construction.TileRepeatConformed | pandas/core/panel.py:33-36 | tiling the times and repeating the panels lines every combination up at one common position |
| Construction.EnsureLikeIndicesPairs | pandas/core/panel.py:25-37 | with no repeats, every time/panel pair of the inputs occurs at some common position |
| Construction.EnsureLikeIndicesSorted | pandas/core/panel.py:31-36 | already sorted inputs are tiled and repeated as they stand |
| Construction.EnsureLikeIndicesExample | pandas/core/panel.py:60-66 | years 1960-1962 with panels A, B, C become the years three times over and A A A B B B C C C |
| Construction.EnsureLikeIndicesRepeatsExample | pandas/core/panel.py:70-77 | years that already repeat and panels that already tile are left unchanged |
| Reductions.Reduced | pandas/core/panel.py:1207-1212 | reducing along an axis gives a plane over the other two axes in storage order, each cell the reduction of its line |
| Reductions.Transposed | pandas/core/panel.py:1215-1216 | `.T` swaps a grid's two dimensions |
| Reductions.OrientedCell | pandas/core/panel.py:1207-1216 | after the transpose for non-item axes, the cell at the plane-axis coordinates of (i, j, k) is the reduction of the line through (i, j, k) |
| Reductions.Reduce | pandas/core/panel.py:1207-1218 | an unknown axis raises ValueError; otherwise the frame's index and columns are the plane axes, and each cell reduces the line of cells along the axis through it |
| Reductions.ReduceSingleItem | pandas/core/panel.py:1207-1218 | reducing a one-item panel over items with a pass-through reduction gives that item's frame |

## Left out

- Axis-name resolution (`_get_axis_number`, `_get_axis_name`) is defined in
  `pandas/core/generic.py`, which is not part of this model. It is modelled
  from the registry constants. An unknown key raises ValueError, and the
  message's formatted argument is not reproduced.
- Combining.CombinePanel: `Index.__add__`/`Index.union` put the union in
  sorted order when the labels are comparable. The model keeps the left
  labels and appends the right-only ones in order. Label membership, and
  every cell at its labels, is stated exactly; the order is not.
- Combining.CombinePanel: follows the corrected fused reindex of the
  Findings row. For a non-mixed panel, the source's `reindex` takes
  `_reindex_multi`, and an item present in only one operand then receives
  that operand's last item plane; when that operand has no items at all,
  the source raises IndexError instead. With `p1` holding only item `a` and `p2`
  holding only item `b`, the source computes `p1[a] op p2[b]` in both
  result items. The model combines `p1[a]` with missing cells, and missing
  cells with `p2[b]`.
- Reindexing.ReindexIsGather: states the corrected fused gather on every
  path. On the source's `_reindex_multi` path, a new item takes the last
  item's plane (see Findings), which this lemma does not promise.
- Reindexing.Indexer: pandas raises when it reindexes an axis with
  repeated labels, unless the target equals the axis. The model returns
  the first-position reindex instead. That choice belongs to the model,
  not to pandas, and the error is not modelled. Its message depends on
  the pandas version, so it is not reproduced.
- Reindexing.ReindexItems: the same first-position choice on repeated item labels.
- Reindexing.ReindexMajor: the same first-position choice on repeated major labels.
- Reindexing.ReindexMinor: the same first-position choice on repeated minor labels.
- Reindexing.ReindexMulti: the same first-position choice on any repeated axis.
- Panels.FrameReindex: the same first-position choice on a frame's repeated labels.
- Reindexing.JoinIndex: the same simplification of `union` and
  `intersection` order. Membership is stated both ways; the order is not.
- Construction.CombinedIndex: `_get_combined_index` lives in
  `pandas/core/index.py`, which is not part of this model. It is modelled
  as a fold of union or intersection; sorting and `Index` name handling
  are left out.
- Reindexing.Reindex: fill methods (`pad`/`backfill`), mixed-dtype panels
  and the `_mut_exclusive` keyword aliases are left out. So is the
  `level=` option of `reindex_axis`. `copy` matters only for the
  "no axis given" error. With all three axes given, the source's fused
  `_reindex_multi` path raises IndexError on a panel without items and
  copies the last item's plane into a new item (see Findings). The model
  uses the corrected `ReindexMulti` there, so it returns Ok with a missing
  plane in both cases.
- Cleaning.DropNa: on an axis with repeated labels, pandas raises when
  it reindexes onto the kept labels, unless nothing is dropped and the
  target equals the axis. The model returns the first-position reindex
  instead and does not model that error, so it returns Ok on such inputs.
  The keep-or-drop rule is proved only for panels without repeated
  labels. With repeats, the model promises only the subsequence and the
  untouched other axes.
- Cleaning.FillNa: a fill by method is delegated to `Series.fillna` and
  rebuilt through `from_dict`. The model returns `FilledByMethod(method)`
  and does not model forward or backward filling.
- LongFormat.ToFrame: the MultiIndex level names (`major`/`minor` or the
  axis names) and dtype handling are left out.
- Assignment.SetItem: where a new item is placed, and the replacement of
  an existing one, follow `BlockManager.set` in `pandas/core/internals.py`,
  which is not part of this model. The model appends a new item and
  replaces the first match. The dtype inferred for a scalar is left out.
- Reductions.Reduce: the reduction itself (`nanops`, `skipna`) is an
  abstract function of a line of cells. Only the orientation and labelling
  of its result is modelled.
- Panel construction (`__init__`, `_init_dict`, `from_dict`), `xs`,
  `groupby`, `apply`, `truncate`, `update`, `join`, the I/O methods
  (`to_excel`, `to_sparse`) and the string representation are outside the
  modelled core.
- Assignment.ItemPlane: the TypeError for an unsupported value keeps the
  fixed text "Cannot set item of type" and drops the formatted type name.
- Python's default arguments are required parameters in the model:
  `shift(axis='major')`, `swapaxes(axis1='major', axis2='minor')`,
  `dropna(axis=0, how='any')` and `to_frame(filter_observations=True)`.
  Passing the default explicitly gives the same result.
- Reshape.Shift: `axis` is a string, because the source compares it with
  `'major'` and `'minor'`. A non-string axis such as `shift(1, axis=1)`
  raises ValueError("Invalid axis") in pandas. The model cannot express
  that input, but it would take the same error branch.
- The copy flags of `swapaxes` and `transpose` only affect memory sharing,
  so they are not modelled.
- Floating-point NaN is `None`. The model does not distinguish NaN from
  other missing values, and does not model numeric dtypes.

## Findings

| source | as written | input that shows it | evidently intended | confidence | as-written member | corrected member |
|---|---|---|---|---|---|---|
| pandas/core/panel.py:773-784 | `_reindex_multi` gathers `values[ind]` for every item indexer entry; `Index.reindex` reports an absent item as -1, so NumPy's negative indexing copies the LAST item's plane into the new item (and raises IndexError when the panel has no items) | items `[a]`, one cell `v`, reindexed to items `[a, b]` with major and minor unchanged: the new item `b` holds `v` | an absent item gets an all-missing plane, as the major/minor axes do through `take_2d_multi` and as the per-axis reindex does | high; not executed | Reindexing.ReindexMultiAsWritten, Reindexing.ReindexMultiCopiesLastItem | Reindexing.ReindexMulti |

The corrected `Reindexing.ReindexMulti` is the one `Reindexing.Reindex`
and `Combining.CombinePanel` use. `Reindexing.ReindexMultiSequential`
proves that it agrees with the per-axis reindex path.

=== FILE: assign.dfy ===
/** Item assignment `panel[key] = value`: the value becomes a (major,
    minor) plane, replacing the plane of an existing item or appended as a
    new item. */
module Assignment {
  import opened Results
  import opened Seqs
  import opened Labels
  import opened Panels

  /** The kinds of value an item can be set to. `ArrayValue` is an ndarray
      with its shape tuple; when that shape is two-dimensional its cells
      form a grid of that shape. */
  datatype ItemValue<V> =
    | FrameValue(frame: Frame<V>)
    | ArrayValue(shape: seq<nat>, cells: Grid2<V>)
    | ScalarValue(x: Option<V>)
    | OtherValue
  {
    predicate WellFormed() {
      && (FrameValue? ==> frame.Shaped())
      && (ArrayValue? && |shape| == 2 ==> Shape2(cells, shape[0], shape[1]))
    }
  }

  /** A `n` by `k` plane holding `x` in every cell: `np.empty(...)` then
      `fill(x)`. */
  function FilledPlane<V>(n: nat, k: nat, x: Option<V>): (g: Grid2<V>)
    ensures Shape2(g, n, k)
    ensures forall j, c :: 0 <= j < n && 0 <= c < k ==> g[j][c] == x
  {
    seq(n, _ => seq(k, _ => x))
  }

  /** The (major, minor) plane `__setitem__` builds from a value: a frame
      is conformed to the major and minor axes, an array must have exactly
      the plane's shape (AssertionError otherwise), a scalar is broadcast,
      and anything else raises TypeError. */
  function ItemPlane<V>(p: Panel<V>, value: ItemValue<V>): (r: Result<Grid2<V>>)
    requires p.Shaped() && value.WellFormed()
    ensures r.Err? <==> value.OtherValue? || (value.ArrayValue? && value.shape != [|p.major|, |p.minor|])
    ensures r.Err? && value.OtherValue? ==> r.error.TypeError?
    ensures r.Err? && value.ArrayValue? ==> r.error.AssertionError?
    ensures r.Ok? ==> Shape2(r.value, |p.major|, |p.minor|)
    ensures value.FrameValue? ==> r == Ok(FrameReindex(value.frame, p.major, p.minor).values)
    ensures value.ArrayValue? && r.Ok? ==> r.value == value.cells
    ensures value.ScalarValue? ==> r.Ok? && forall j, c :: 0 <= j < |p.major| && 0 <= c < |p.minor| ==> r.value[j][c] == value.x
  {
    match value
    case FrameValue(f) => Ok(FrameReindex(f, p.major, p.minor).values)
    case ArrayValue(shape, cells) =>
      if shape != [|p.major|, |p.minor|] then Err(AssertionError(""))
      else Ok(cells)
    case ScalarValue(x) => Ok(FilledPlane(|p.major|, |p.minor|, x))
    case OtherValue => Err(TypeError("Cannot set item of type"))
  }

  /** `NDFrame._set_item(key, plane)`: replace the plane of the first item
      labelled `key`, or append `key` with the plane as a new last item. */
  function SetPlane<V>(p: Panel<V>, key: Label, plane: Grid2<V>): (r: Panel<V>)
    requires p.Shaped() && Shape2(plane, |p.major|, |p.minor|)
    ensures r.Shaped() && r.major == p.major && r.minor == p.minor
    ensures key in p.items ==> r.items == p.items
    ensures key !in p.items ==> r.items == p.items + [key]
    ensures r.values[IndexOf(r.items, key).value] == plane
    ensures forall i :: 0 <= i < |p.items| && p.items[i] != key ==> r.values[i] == p.values[i]
  {
    match IndexOf(p.items, key)
    case Some(i) => Panel(p.items, p.major, p.minor, p.values[i := plane])
    case None =>
      var r := Panel(p.items + [key], p.major, p.minor, p.values + [plane]);
      assert r.items[|p.items|] == key;
      r
  }

  /** `panel[key] = value`. */
  function SetItem<V>(p: Panel<V>, key: Label, value: ItemValue<V>): (r: Result<Panel<V>>)
    requires p.Shaped() && value.WellFormed()
    ensures r.Err? <==> ItemPlane(p, value).Err?
    ensures r.Err? ==> r == Err(ItemPlane(p, value).error)
    ensures r.Ok? ==> r.value.Shaped() && r.value.major == p.major && r.value.minor == p.minor
    ensures r.Ok? ==> r.value.items == if key in p.items then p.items else p.items + [key]
    ensures p.Valid() && r.Ok? ==> r.value.Valid()
  {
    var plane :- ItemPlane(p, value);
    var r := SetPlane(p, key, plane);
    assert p.Valid() ==> r.Valid() by {
      if p.Valid() && key !in p.items {
        assert forall i :: 0 <= i < |p.items| ==> r.items[i] == p.items[i] && p.items[i] != key;
      }
    }
    Ok(r)
  }

  /** Reading an item back after setting it gives the plane the value
      became, indexed by the major axis with the minor axis as columns. */
  lemma SetItemGetItem<V>(p: Panel<V>, key: Label, value: ItemValue<V>)
    requires p.Shaped() && value.WellFormed() && SetItem(p, key, value).Ok?
    ensures GetItem(SetItem(p, key, value).value, key) == Ok(Frame(p.major, p.minor, ItemPlane(p, value).value))
  {
  }

  /** Setting one item leaves every other item of a valid panel as it was. */
  lemma SetItemOthers<V>(p: Panel<V>, key: Label, value: ItemValue<V>, other: Label)
    requires p.Valid() && value.WellFormed() && SetItem(p, key, value).Ok?
    requires other != key && other in p.items
    ensures GetItem(SetItem(p, key, value).value, other) == GetItem(p, other)
  {
    var r := SetItem(p, key, value).value;
    var i := IndexOf(p.items, other).value;
    assert r.items[i] == other;
    assert IndexOf(r.items, other) == Some(i) by {
      if key !in p.items {
        assert r.items[..|p.items|] == p.items;
        IndexOfDistinct(r.items, i);
      } else {
        IndexOfDistinct(r.items, i);
      }
    }
  }

  /** Assigning the same item twice keeps only the second value. */
  lemma SetItemTwice<V>(p: Panel<V>, key: Label, v1: ItemValue<V>, v2: ItemValue<V>)
    requires p.Valid() && v1.WellFormed() && v2.WellFormed()
    requires SetItem(p, key, v1).Ok? && ItemPlane(p, v2).Ok?
    ensures SetItem(SetItem(p, key, v1).value, key, v2) == SetItem(p, key, v2)
  {
    var q := SetItem(p, key, v1).value;
    assert ItemPlane(q, v2) == ItemPlane(p, v2);
    var plane := ItemPlane(p, v2).value;
    var r1 := SetPlane(q, key, plane);
    var r2 := SetPlane(p, key, plane);
    assert key in q.items;
    assert r1.items == r2.items;
    var n := |r1.items|;
    assert q.Valid();
    assert r2.Valid() by {
      if key !in p.items {
        assert forall i :: 0 <= i < |p.items| ==> r2.items[i] == p.items[i] && p.items[i] != key;
      }
    }
    forall i | 0 <= i < n ensures r1.values[i] == r2.values[i] {
      if r1.items[i] != key {
        assert i < |p.items|;
        assert r1.values[i] == q.values[i] == p.values[i] == r2.values[i];
      } else {
        IndexOfDistinct(r1.items, i);
        IndexOfDistinct(r2.items, i);
      }
    }
    assert r1.values == r2.values;
    assert SetItem(q, key, v2) == Ok(r1);
    assert SetItem(p, key, v2) == Ok(r2);
  }
}

=== FILE: axes.dfy ===
/** The axis registry of a Panel: the three canonical axis names and their
    positions, the 'major'/'minor' aliases, the resolver that accepts a
    name, an alias or a position, and the plane each axis leaves behind
    when it is held fixed. */
module Axes {
  import opened Results

  /** The three axes, in storage order. */
  datatype Axis = Items | Major | Minor

  /** `_AXIS_ORDERS`: the canonical names in storage order. */
  const AxisOrders: seq<string> := ["items", "major_axis", "minor_axis"]

  /** `_AXIS_NUMBERS`: the storage position of an axis. */
  function Number(a: Axis): nat {
    match a
    case Items => 0
    case Major => 1
    case Minor => 2
  }

  /** `_AXIS_NAMES`: the canonical name of an axis. */
  function Name(a: Axis): (r: string)
    ensures r == AxisOrders[Number(a)]
  {
    match a
    case Items => "items"
    case Major => "major_axis"
    case Minor => "minor_axis"
  }

  /** `_AXIS_ALIASES.get(name, name)`: the short forms 'major' and 'minor'
      stand for the canonical names; every other name stands for itself. */
  function Dealias(name: string): string {
    if name == "major" then "major_axis"
    else if name == "minor" then "minor_axis"
    else name
  }

  /** An axis argument as callers pass it: a string or an integer. */
  datatype AxisKey = Named(name: string) | Numbered(n: int)

  /** True when `key` designates axis `a`: by canonical name, by alias or
      by position. */
  predicate Designates(key: AxisKey, a: Axis) {
    match key
    case Named(s) => Dealias(s) == Name(a)
    case Numbered(n) => n == Number(a)
  }

  /** `_get_axis_number` / `_get_axis_name`: resolve an axis argument, or
      fail with ValueError when it names no axis. */
  function Resolve(key: AxisKey): (r: Result<Axis>)
    ensures r.Ok? ==> Designates(key, r.value)
    ensures r.Err? ==> forall a :: !Designates(key, a)
    ensures r.Err? ==> r.error.ValueError?
  {
    match key
    case Named(s) =>
      var c := Dealias(s);
      if c == "items" then Ok(Items)
      else if c == "major_axis" then Ok(Major)
      else if c == "minor_axis" then Ok(Minor)
      else
        assert forall a :: Name(a) in ["items", "major_axis", "minor_axis"];
        Err(ValueError("No axis named " + s))
    case Numbered(n) =>
      if n == 0 then Ok(Items)
      else if n == 1 then Ok(Major)
      else if n == 2 then Ok(Minor)
      else Err(ValueError("No axis named"))
  }

  /** No key designates two axes, so resolution is unambiguous. */
  lemma DesignatesUnique(key: AxisKey, a: Axis, b: Axis)
    requires Designates(key, a) && Designates(key, b)
    ensures a == b
  {
  }

  /** Names and positions round-trip through the resolver, and the aliases
      'major' and 'minor' resolve like the long names. */
  lemma ResolveRoundTrip(a: Axis)
    ensures Resolve(Named(Name(a))) == Ok(a)
    ensures Resolve(Numbered(Number(a))) == Ok(a)
    ensures Resolve(Named("major")) == Ok(Major)
    ensures Resolve(Named("minor")) == Ok(Minor)
  {
  }

  /** `_get_plane_axes`: the (index, columns) pair of axes that label the
      plane orthogonal to `a`. */
  function PlaneAxes(a: Axis): (r: (Axis, Axis))
    ensures r.0 != a && r.1 != a && r.0 != r.1
    ensures a == Items ==> Number(r.0) < Number(r.1)
    ensures a != Items ==> r.1 == Items
  {
    match a
    case Items => (Major, Minor)
    case Major => (Minor, Items)
    case Minor => (Major, Items)
  }

  /** Together with the fixed axis, the plane axes cover all three axes. */
  lemma PlaneAxesCover(a: Axis, b: Axis)
    ensures b == a || b == PlaneAxes(a).0 || b == PlaneAxes(a).1
  {
  }

  /** The two axes other than `a`, in storage order: the order `sum`
      collapses them in when a mask is reduced to one value per position
      of `a`. */
  function Others(a: Axis): (r: (Axis, Axis))
    ensures r.0 != a && r.1 != a && Number(r.0) < Number(r.1)
  {
    match a
    case Items => (Major, Minor)
    case Major => (Items, Minor)
    case Minor => (Items, Major)
  }

  /** `_AXIS_SLICEMAP`: the role a non-item axis plays in a 2-D slice. */
  function SliceRole(a: Axis): (r: Option<string>)
    ensures r.None? <==> a == Items
    ensures a == Major ==> r == Some("index")
    ensures a == Minor ==> r == Some("columns")
  {
    match a
    case Items => None
    case Major => Some("index")
    case Minor => Some("columns")
  }

  /** The coordinate a position triple has along axis `a`. */
  function Pick(a: Axis, i: nat, j: nat, k: nat): nat {
    match a
    case Items => i
    case Major => j
    case Minor => k
  }
}

=== FILE: cleaning.dfy ===
/** Missing-data handling: `dropna`, which drops the positions of one axis
    whose cross-section has too many missing cells, and `fillna` with a
    fill value. */
module Cleaning {
  import opened Results
  import opened Seqs
  import opened Labels
  import opened Axes
  import opened Panels
  import opened Reindexing

  // ---------------------------------------------------------------------
  // Cross-sections

  /** The 2-D cross-section of `p` at position `t` of axis `a`: its rows
      run along the first of the other two axes, its columns along the
      second. */
  function Section<V>(p: Panel<V>, a: Axis, t: nat): (g: Grid2<V>)
    requires p.Shaped() && t < p.Extent(a)
    ensures Shape2(g, p.Extent(Others(a).0), p.Extent(Others(a).1))
  {
    match a
    case Items => p.values[t]
    case Major => seq(|p.items|, i requires 0 <= i < |p.items| => p.values[i][t])
    case Minor =>
      seq(|p.items|, i requires 0 <= i < |p.items| =>
        seq(|p.major|, j requires 0 <= j < |p.major| => p.values[i][j][t]))
  }

  /** The cell (i, j, k) lies in the cross-section through its own
      coordinate along `a`, at its coordinates along the other two axes. */
  lemma SectionCell<V>(p: Panel<V>, a: Axis, i: nat, j: nat, k: nat)
    requires p.Shaped() && i < |p.items| && j < |p.major| && k < |p.minor|
    ensures Pick(a, i, j, k) < p.Extent(a)
    ensures Pick(Others(a).0, i, j, k) < p.Extent(Others(a).0)
    ensures Pick(Others(a).1, i, j, k) < p.Extent(Others(a).1)
    ensures Section(p, a, Pick(a, i, j, k))[Pick(Others(a).0, i, j, k)][Pick(Others(a).1, i, j, k)] == p.values[i][j][k]
  {
  }

  /** Every cell of the grid is present. */
  predicate AllPresent<V>(g: Grid2<V>) {
    forall x, y :: 0 <= x < |g| && 0 <= y < |g[x]| ==> g[x][y].Some?
  }

  /** Some cell of the grid is present. */
  predicate AnyPresent<V>(g: Grid2<V>) {
    exists x, y :: 0 <= x < |g| && 0 <= y < |g[x]| && g[x][y].Some?
  }

  /** `notnull`. */
  predicate Present<V>(c: Option<V>) {
    c.Some?
  }

  /** Counting the present cells of a flattened `n` by `k` grid: all of
      them exactly when every cell is present, some when any is. */
  lemma CountPresent<V>(g: Grid2<V>, n: nat, k: nat)
    requires Shape2(g, n, k)
    ensures |Flatten(g)| == n * k
    ensures Count(Flatten(g), Present) == n * k <==> AllPresent(g)
    ensures Count(Flatten(g), Present) > 0 <==> AnyPresent(g)
  {
    assert Uniform(g, k);
    FlattenLength(g, k);
    CountPresentAll(g, n, k);
    CountPresentAny(g, n, k);
  }

  lemma CountPresentAll<V>(g: Grid2<V>, n: nat, k: nat)
    requires Shape2(g, n, k) && Uniform(g, k) && |Flatten(g)| == n * k
    ensures Count(Flatten(g), Present) == n * k <==> AllPresent(g)
  {
    var f := Flatten(g);
    if AllPresent(g) {
      forall r | 0 <= r < |f| ensures Present(f[r]) {
        FlattenAtQuotient(g, k, r);
      }
    }
    if Count(f, Present) == |f| {
      forall x, y | 0 <= x < |g| && 0 <= y < |g[x]| ensures g[x][y].Some? {
        FlattenAt(g, k, x, y);
        assert Present(f[x * k + y]);
      }
    }
  }

  lemma CountPresentAny<V>(g: Grid2<V>, n: nat, k: nat)
    requires Shape2(g, n, k) && Uniform(g, k) && |Flatten(g)| == n * k
    ensures Count(Flatten(g), Present) > 0 <==> AnyPresent(g)
  {
    var f := Flatten(g);
    if AnyPresent(g) {
      var x, y :| 0 <= x < |g| && 0 <= y < |g[x]| && g[x][y].Some?;
      FlattenAt(g, k, x, y);
      assert Present(f[x * k + y]);
    }
    if Count(f, Present) > 0 {
      var r :| 0 <= r < |f| && Present(f[r]);
      FlattenAtQuotient(g, k, r);
    }
  }

  // ---------------------------------------------------------------------
  // dropna

  /** Whether `dropna(how=…)` keeps the position `t` of axis `a`: 'all'
      drops only cross-sections without any present cell; every other
      value of `how` drops cross-sections with any missing cell. */
  predicate Keeps<V>(p: Panel<V>, a: Axis, how: string, t: nat)
    requires p.Shaped() && t < p.Extent(a)
  {
    if how == "all" then AnyPresent(Section(p, a, t)) else AllPresent(Section(p, a, t))
  }

  /** The mask `dropna` computes: the count of present cells in every
      cross-section along `a`, compared with the cross-section size. */
  function DropMask<V>(p: Panel<V>, a: Axis, how: string): (cond: seq<bool>)
    requires p.Shaped()
    ensures |cond| == p.Extent(a)
    ensures forall t :: 0 <= t < p.Extent(a) ==> (cond[t] <==> Keeps(p, a, how, t))
  {
    var perSlice := p.Extent(Others(a).0) * p.Extent(Others(a).1);
    var cond := seq(p.Extent(a), t requires 0 <= t < p.Extent(a) =>
      var mask := Count(Flatten(Section(p, a, t)), Present);
      if how == "all" then mask > 0 else mask == perSlice);
    assert forall t :: 0 <= t < p.Extent(a) ==> (cond[t] <==> Keeps(p, a, how, t)) by {
      forall t | 0 <= t < p.Extent(a) ensures cond[t] <==> Keeps(p, a, how, t) {
        CountPresent(Section(p, a, t), p.Extent(Others(a).0), p.Extent(Others(a).1));
      }
    }
    cond
  }

  /** `dropna(axis, how)`: keep the positions of `axis` whose cross-section
      passes `Keeps`, in their order, and reindex the panel onto them; the
      other two axes are untouched. An axis argument that names no axis
      raises ValueError. */
  function DropNa<V>(p: Panel<V>, axis: AxisKey, how: string): (r: Result<Panel<V>>)
    requires p.Shaped()
    ensures r.Err? <==> Resolve(axis).Err?
    ensures r.Err? ==> r.error.ValueError?
    ensures r.Ok? ==> (
      var a := Resolve(axis).value;
      && r.value.Shaped()
      && Subseq(r.value.AxisLabels(a), p.AxisLabels(a))
      && (forall b :: b != a ==> r.value.AxisLabels(b) == p.AxisLabels(b))
      && (p.Valid() ==> forall t :: 0 <= t < p.Extent(a) ==>
            (p.AxisLabels(a)[t] in r.value.AxisLabels(a) <==> Keeps(p, a, how, t))))
  {
    var a :- Resolve(axis);
    var labels := p.AxisLabels(a);
    var newAx := Compress(labels, DropMask(p, a, how));
    assert p.Valid() ==> forall t :: 0 <= t < p.Extent(a) ==> (labels[t] in newAx <==> Keeps(p, a, how, t)) by {
      if p.Valid() {
        forall t | 0 <= t < p.Extent(a) ensures labels[t] in newAx <==> Keeps(p, a, how, t) {
          CompressDistinct(labels, DropMask(p, a, how), t);
        }
      }
    }
    Ok(ReindexAxis(p, newAx, a))
  }

  /** On a valid panel every cross-section `dropna` keeps is the
      cross-section of a position that passes `Keeps`, unchanged: with
      'any' the result has no missing cell left, and with 'all' every
      cross-section of the result still holds a present cell. */
  lemma DropNaSections<V>(p: Panel<V>, axis: AxisKey, how: string, s: nat)
    requires p.Valid()
    requires DropNa(p, axis, how).Ok?
    requires s < DropNa(p, axis, how).value.Extent(Resolve(axis).value)
    ensures var a, q := Resolve(axis).value, DropNa(p, axis, how).value;
      exists t :: 0 <= t < p.Extent(a)
        && p.AxisLabels(a)[t] == q.AxisLabels(a)[s]
        && Keeps(p, a, how, t)
        && Section(q, a, s) == Section(p, a, t)
  {
    var a, q := Resolve(axis).value, DropNa(p, axis, how).value;
    var labels := p.AxisLabels(a);
    var mask := DropMask(p, a, how);
    var newAx := Compress(labels, mask);
    assert q == ReindexAxis(p, newAx, a);
    var t :| 0 <= t < |labels| && mask[t] && labels[t] == newAx[s];
    SectionOfReindexed(p, newAx, a, s, t);
  }

  /** Reindexing an axis without repeats moves whole cross-sections: the
      one at a requested label is the old one at that label. */
  lemma SectionOfReindexed<V>(p: Panel<V>, labels: seq<Label>, a: Axis, s: nat, t: nat)
    requires p.Shaped() && Distinct(p.AxisLabels(a))
    requires s < |labels| && t < p.Extent(a) && labels[s] == p.AxisLabels(a)[t]
    ensures ReindexAxis(p, labels, a).Extent(a) == |labels|
    ensures Section(ReindexAxis(p, labels, a), a, s) == Section(p, a, t)
  {
    IndexOfDistinct(p.AxisLabels(a), t);
    assert p.AxisLabels(a)[t] in p.AxisLabels(a);
    var q := ReindexAxis(p, labels, a);
    match a
    case Items =>
      assert q == ReindexItems(p, labels);
      forall j | 0 <= j < |p.major| ensures q.values[s][j] == p.values[t][j] {
      }
    case Major =>
      assert q == ReindexMajor(p, labels);
      forall i | 0 <= i < |p.items| ensures q.values[i][s] == p.values[i][t] {
      }
    case Minor =>
      assert q == ReindexMinor(p, labels);
      forall i | 0 <= i < |p.items| ensures Section(q, a, s)[i] == Section(p, a, t)[i] {
      }
  }

  // ---------------------------------------------------------------------
  // fillna

  /** What `fillna` produces: a panel, or, for a fill method, the per-item
      method fill of the frames, which is delegated elsewhere. */
  datatype FillOutcome<V> = Filled(panel: Panel<V>) | FilledByMethod(fillMethod: string)

  /** `fillna(value, method)`: exactly one of the two must be given; a value
      replaces every missing cell. */
  function FillNa<V>(p: Panel<V>, value: Option<V>, fillMethod: Option<string>): (r: Result<FillOutcome<V>>)
    requires p.Shaped()
    ensures r.Err? <==> value.None? == fillMethod.None?
    ensures value.None? && fillMethod.None? ==> r == Err(ValueError("must specify a fill method or value"))
    ensures value.Some? && fillMethod.Some? ==> r == Err(ValueError("cannot specify both a fill method and value"))
    ensures value.None? && fillMethod.Some? ==> r == Ok(FilledByMethod(fillMethod.value))
    ensures value.Some? && fillMethod.None? ==> (
      && r.Ok? && r.value.Filled?
      && var q := r.value.panel;
      && q.Shaped() && q.items == p.items && q.major == p.major && q.minor == p.minor
      && (forall i, j, k :: 0 <= i < |p.items| && 0 <= j < |p.major| && 0 <= k < |p.minor| ==>
            q.values[i][j][k].Some?
            && (p.values[i][j][k].Some? ==> q.values[i][j][k] == p.values[i][j][k])
            && (p.values[i][j][k].None? ==> q.values[i][j][k] == value)))
  {
    if value.None? then
      if fillMethod.None? then Err(ValueError("must specify a fill method or value"))
      else Ok(FilledByMethod(fillMethod.value))
    else if fillMethod.Some? then Err(ValueError("cannot specify both a fill method and value"))
    else Ok(Filled(FillValue(p, value.value)))
  }

  /** `BlockManager.fillna(value)`: every missing cell becomes `v`. */
  function FillValue<V>(p: Panel<V>, v: V): (q: Panel<V>)
    requires p.Shaped()
    ensures q.Shaped() && q.items == p.items && q.major == p.major && q.minor == p.minor
    ensures forall i, j, k :: 0 <= i < |p.items| && 0 <= j < |p.major| && 0 <= k < |p.minor| ==>
      q.values[i][j][k] == if p.values[i][j][k].Some? then p.values[i][j][k] else Some(v)
  {
    Panel(p.items, p.major, p.minor,
      seq(|p.items|, i requires 0 <= i < |p.items| =>
        seq(|p.major|, j requires 0 <= j < |p.major| =>
          seq(|p.minor|, k requires 0 <= k < |p.minor| =>
            if p.values[i][j][k].Some? then p.values[i][j][k] else Some(v)))))
  }

  /** Filling twice with a value is filling once: the first fill leaves
      nothing missing. */
  lemma FillNaIdempotent<V>(p: Panel<V>, v: V, w: V)
    requires p.Shaped()
    ensures var q := FillNa(p, Some(v), None).value.panel;
      FillNa(q, Some(w), None) == Ok(Filled(q))
  {
    var q := FillNa(p, Some(v), None).value.panel;
    var q2 := FillNa(q, Some(w), None).value.panel;
    GridsEqual(q2, q);
  }

  /** After a value fill no cross-section along any axis has a missing
      cell, so `dropna` with 'any' drops nothing. */
  lemma FillNaThenDropNa<V>(p: Panel<V>, v: V, axis: AxisKey)
    requires p.Valid() && Resolve(axis).Ok?
    ensures var q := FillNa(p, Some(v), None).value.panel;
      DropNa(q, axis, "any") == Ok(q)
  {
    var q := FillNa(p, Some(v), None).value.panel;
    var a := Resolve(axis).value;
    assert q.Valid();
    var mask := DropMask(q, a, "any");
    forall t | 0 <= t < q.Extent(a) ensures mask[t] {
      var g: Grid2<V> := Section(q, a, t);
      forall x, y | 0 <= x < |g| && 0 <= y < |g[x]| ensures g[x][y].Some? {
        match a
        case Items =>
        case Major =>
        case Minor =>
      }
    }
    var labels := q.AxisLabels(a);
    var newAx := Compress(labels, mask);
    CompressAll(labels, mask);
    assert newAx == labels;
    ReindexAxisIdentity(q, a);
  }
}

=== FILE: combine.dfy ===
/** Arithmetic between a panel and another operand: a scalar applied to
    every cell, a frame broadcast across one axis after being conformed to
    the plane it spans, or a second panel after both are reindexed onto the
    union of their axes. The arithmetic itself is a parameter. */
module Combining {
  import opened Results
  import opened Labels
  import opened Axes
  import opened Panels
  import opened Reindexing

  /** What the right-hand side of a panel operation can be. */
  datatype Operand<V> =
    | Scalar(value: Option<V>)
    | FrameOperand(frame: Frame<V>)
    | PanelOperand(panel: Panel<V>)
    | OtherOperand

  /** The cell of `f` at the labels (x, y), or missing when either label
      is absent: what `f.reindex(index=…, columns=…)` places there. */
  function FrameAt<V>(f: Frame<V>, x: Label, y: Label): Option<V>
    requires f.Shaped()
  {
    if x in f.index && y in f.columns
    then f.values[IndexOf(f.index, x).value][IndexOf(f.columns, y).value]
    else None
  }

  /** `func(self.values, scalar)`: the operation applied to every cell with
      the scalar on the right. */
  function CombineScalar<V>(p: Panel<V>, x: Option<V>, op: (Option<V>, Option<V>) -> Option<V>): (r: Panel<V>)
    requires p.Shaped()
    ensures r.Shaped() && r.items == p.items && r.major == p.major && r.minor == p.minor
    ensures forall i, j, k :: 0 <= i < |p.items| && 0 <= j < |p.major| && 0 <= k < |p.minor| ==>
      r.values[i][j][k] == op(p.values[i][j][k], x)
  {
    Panel(p.items, p.major, p.minor,
      seq(|p.items|, i requires 0 <= i < |p.items| =>
        seq(|p.major|, j requires 0 <= j < |p.major| =>
          seq(|p.minor|, k requires 0 <= k < |p.minor| => op(p.values[i][j][k], x)))))
  }

  /** `_combine_frame(other, func, axis)`: conform the frame to the plane
      orthogonal to `axis` (index along the first plane axis, columns along
      the second), then pair every cell with the frame cell at its
      coordinates on those two axes; the panel keeps its axes. */
  function CombineFrame<V>(p: Panel<V>, f: Frame<V>, op: (Option<V>, Option<V>) -> Option<V>, axis: AxisKey): (r: Result<Panel<V>>)
    requires p.Shaped() && f.Shaped()
    ensures r.Err? <==> Resolve(axis).Err?
    ensures r.Err? ==> r.error.ValueError?
    ensures r.Ok? ==> r.value.Shaped() && r.value.items == p.items && r.value.major == p.major && r.value.minor == p.minor
    ensures r.Ok? ==> (
      var (ix, cx) := PlaneAxes(Resolve(axis).value);
      forall i, j, k :: 0 <= i < |p.items| && 0 <= j < |p.major| && 0 <= k < |p.minor| ==>
        && Pick(ix, i, j, k) < p.Extent(ix) && Pick(cx, i, j, k) < p.Extent(cx)
        && r.value.values[i][j][k] == op(p.values[i][j][k],
             FrameAt(f, p.AxisLabels(ix)[Pick(ix, i, j, k)], p.AxisLabels(cx)[Pick(cx, i, j, k)])))
  {
    var a :- Resolve(axis);
    var (ix, cx) := PlaneAxes(a);
    var o := FrameReindex(f, p.AxisLabels(ix), p.AxisLabels(cx)).values;
    var values := seq(|p.items|, i requires 0 <= i < |p.items| =>
      seq(|p.major|, j requires 0 <= j < |p.major| =>
        seq(|p.minor|, k requires 0 <= k < |p.minor| =>
          match a
          case Items => op(p.values[i][j][k], o[j][k])
          case Major => op(p.values[i][j][k], o[k][i])
          case Minor => op(p.values[i][j][k], o[j][i]))));
    Ok(Panel(p.items, p.major, p.minor, values))
  }

  /** `_combine_panel(other, func)`: reindex both panels onto the union of
      their items, major and minor axes, then apply the operation cell by
      cell; each side contributes its cell at the labels, or a missing cell
      where it lacks one of them. */
  function CombinePanel<V>(p: Panel<V>, q: Panel<V>, op: (Option<V>, Option<V>) -> Option<V>): (r: Panel<V>)
    requires p.Shaped() && q.Shaped()
    ensures r.Shaped()
    ensures forall x :: x in r.items <==> x in p.items || x in q.items
    ensures forall y :: y in r.major <==> y in p.major || y in q.major
    ensures forall z :: z in r.minor <==> z in p.minor || z in q.minor
    ensures p.Valid() && q.Valid() ==> r.Valid()
    ensures forall i, j, k :: 0 <= i < |r.items| && 0 <= j < |r.major| && 0 <= k < |r.minor| ==>
      r.values[i][j][k] == op(LabelCell(p, r.items[i], r.major[j], r.minor[k]),
                              LabelCell(q, r.items[i], r.major[j], r.minor[k]))
  {
    var items, major, minor := Union(p.items, q.items), Union(p.major, q.major), Union(p.minor, q.minor);
    var left, right := ReindexMulti(p, items, major, minor), ReindexMulti(q, items, major, minor);
    var r := Panel(items, major, minor, Cellwise(left, right, op));
    assert r.Shaped();
    r
  }

  /** The operation applied to corresponding cells of two panels of one
      shape. */
  function Cellwise<V>(l: Panel<V>, r: Panel<V>, op: (Option<V>, Option<V>) -> Option<V>): (g: Grid3<V>)
    requires l.Shaped() && r.Shaped()
    requires |r.items| == |l.items| && |r.major| == |l.major| && |r.minor| == |l.minor|
    ensures Shape3(g, |l.items|, |l.major|, |l.minor|)
    ensures forall i, j, k :: 0 <= i < |l.items| && 0 <= j < |l.major| && 0 <= k < |l.minor| ==>
      g[i][j][k] == op(l.values[i][j][k], r.values[i][j][k])
  {
    seq(|l.items|, i requires 0 <= i < |l.items| =>
      seq(|l.major|, j requires 0 <= j < |l.major| =>
        seq(|l.minor|, k requires 0 <= k < |l.minor| => op(l.values[i][j][k], r.values[i][j][k]))))
  }

  /** `_combine(other, func, axis)`: dispatch on the kind of operand; an
      operand of any other kind falls through and yields nothing. */
  function Combine<V>(p: Panel<V>, other: Operand<V>, op: (Option<V>, Option<V>) -> Option<V>, axis: AxisKey): (r: Result<Option<Panel<V>>>)
    requires p.Shaped()
    requires other.FrameOperand? ==> other.frame.Shaped()
    requires other.PanelOperand? ==> other.panel.Shaped()
    ensures r.Err? <==> other.FrameOperand? && Resolve(axis).Err?
    ensures r.Ok? ==> (r.value.None? <==> other.OtherOperand?)
    ensures other.Scalar? ==> r == Ok(Some(CombineScalar(p, other.value, op)))
    ensures other.PanelOperand? ==> r == Ok(Some(CombinePanel(p, other.panel, op)))
    ensures other.FrameOperand? && r.Ok? ==> r.value == Some(CombineFrame(p, other.frame, op, axis).value)
  {
    match other
    case PanelOperand(q) => Ok(Some(CombinePanel(p, q, op)))
    case FrameOperand(f) =>
      var r :- CombineFrame(p, f, op, axis);
      Ok(Some(r))
    case Scalar(x) => Ok(Some(CombineScalar(p, x, op)))
    case OtherOperand => Ok(None)
  }

  /** The plain operators (`+`, `-`, …): scalars only, anything else raises
      ValueError. */
  function ArithMethod<V>(p: Panel<V>, other: Operand<V>, op: (Option<V>, Option<V>) -> Option<V>): (r: Result<Panel<V>>)
    requires p.Shaped()
    ensures r.Err? <==> !other.Scalar?
    ensures r.Err? ==> r.error == ValueError("Simple arithmetic with Panel can only be done with scalar values")
    ensures r.Ok? ==> r.value == CombineScalar(p, other.value, op)
  {
    if !other.Scalar? then Err(ValueError("Simple arithmetic with Panel can only be done with scalar values"))
    else
      Ok(Combine(p, other, op, Numbered(0)).value.value)
  }

  // ---------------------------------------------------------------------
  // Partners

  /** A panel with the axes of `p` holding `x` in every cell. */
  function ConstantLike<V>(p: Panel<V>, x: Option<V>): (c: Panel<V>)
    ensures c.Shaped() && c.items == p.items && c.major == p.major && c.minor == p.minor
    ensures forall i, j, k :: 0 <= i < |p.items| && 0 <= j < |p.major| && 0 <= k < |p.minor| ==> c.values[i][j][k] == x
  {
    Panel(p.items, p.major, p.minor, seq(|p.items|, _ => seq(|p.major|, _ => seq(|p.minor|, _ => x))))
  }

  /** Two valid panels on the same axes combine cell by cell, without any
      realignment. */
  lemma CombinePanelAligned<V>(p: Panel<V>, q: Panel<V>, op: (Option<V>, Option<V>) -> Option<V>)
    requires p.Valid() && q.Valid()
    requires q.items == p.items && q.major == p.major && q.minor == p.minor
    ensures var r := CombinePanel(p, q, op);
      && r.items == p.items && r.major == p.major && r.minor == p.minor
      && forall i, j, k :: 0 <= i < |p.items| && 0 <= j < |p.major| && 0 <= k < |p.minor| ==>
           r.values[i][j][k] == op(p.values[i][j][k], q.values[i][j][k])
  {
    UnionSubsumed(p.items, q.items);
    UnionSubsumed(p.major, q.major);
    UnionSubsumed(p.minor, q.minor);
    var r := CombinePanel(p, q, op);
    forall i, j, k | 0 <= i < |p.items| && 0 <= j < |p.major| && 0 <= k < |p.minor|
      ensures r.values[i][j][k] == op(p.values[i][j][k], q.values[i][j][k])
    {
      LabelCellAt(p, i, j, k);
      LabelCellAt(q, i, j, k);
    }
  }

  /** A scalar acts like a panel on the same axes that holds the scalar in
      every cell. */
  lemma CombineScalarAsPanel<V>(p: Panel<V>, x: Option<V>, op: (Option<V>, Option<V>) -> Option<V>)
    requires p.Valid()
    ensures CombineScalar(p, x, op) == CombinePanel(p, ConstantLike(p, x), op)
  {
    var c := ConstantLike(p, x);
    assert c.Valid();
    CombinePanelAligned(p, c, op);
    GridsEqual(CombineScalar(p, x, op), CombinePanel(p, c, op));
  }

  /** Broadcasting a frame that already carries the plane's labels pairs
      each cell with the frame cell at its plane coordinates: along items
      (j, k), along major (k, i), along minor (j, i). */
  lemma CombineFrameAligned<V>(p: Panel<V>, f: Frame<V>, op: (Option<V>, Option<V>) -> Option<V>, a: Axis)
    requires p.Shaped() && f.Valid()
    requires f.index == p.AxisLabels(PlaneAxes(a).0) && f.columns == p.AxisLabels(PlaneAxes(a).1)
    ensures var r := CombineFrame(p, f, op, Numbered(Number(a)));
      && r.Ok?
      && forall i, j, k :: 0 <= i < |p.items| && 0 <= j < |p.major| && 0 <= k < |p.minor| ==>
        r.value.values[i][j][k] == op(p.values[i][j][k],
          match a
          case Items => f.values[j][k]
          case Major => f.values[k][i]
          case Minor => f.values[j][i])
  {
    ResolveRoundTrip(a);
    var r := CombineFrame(p, f, op, Numbered(Number(a)));
    var (ix, cx) := PlaneAxes(a);
    forall i, j, k | 0 <= i < |p.items| && 0 <= j < |p.major| && 0 <= k < |p.minor|
      ensures r.value.values[i][j][k] == op(p.values[i][j][k],
          match a
          case Items => f.values[j][k]
          case Major => f.values[k][i]
          case Minor => f.values[j][i])
    {
      var x, y := Pick(ix, i, j, k), Pick(cx, i, j, k);
      IndexOfDistinct(f.index, x);
      IndexOfDistinct(f.columns, y);
      assert FrameAt(f, f.index[x], f.columns[y]) == f.values[x][y];
    }
  }
}

=== FILE: construct.dfy ===
/** Helpers of panel construction: `_extract_axis`, which reconciles the
    major or minor axis of the frames and raw arrays a panel is built
    from, and `_ensure_like_indices`, which makes time and panel label
    vectors conformable for a panel index. */
module Construction {
  import opened Results
  import opened Seqs
  import opened Labels
  import opened Panels

  // ---------------------------------------------------------------------
  // _extract_axis

  /** One value of the data dict a panel is built from: a frame, a raw 2-D
      array given by its shape, or None. */
  datatype Entry<V> = FrameEntry(frame: Frame<V>) | ArrayEntry(rows: nat, cols: nat) | NoneEntry

  /** The frame axis `axis` selects: 0 the index, 1 the columns. */
  function FrameAxis<V>(f: Frame<V>, axis: nat): seq<Label> {
    if axis == 0 then f.index else f.columns
  }

  /** `v.shape[axis]` of a raw array. */
  function ArrayLength<V>(e: Entry<V>, axis: nat): nat
    requires e.ArrayEntry?
  {
    if axis == 0 then e.rows else e.cols
  }

  /** The axes of the frames among `data`, in order. */
  function FrameAxes<V>(data: seq<Entry<V>>, axis: nat): (r: seq<seq<Label>>)
    ensures forall t :: 0 <= t < |r| ==> exists s :: 0 <= s < |data| && data[s].FrameEntry? && r[t] == FrameAxis(data[s].frame, axis)
    ensures forall s :: 0 <= s < |data| && data[s].FrameEntry? ==> FrameAxis(data[s].frame, axis) in r
    ensures |r| == 0 <==> forall s :: 0 <= s < |data| ==> !data[s].FrameEntry?
  {
    if |data| == 0 then []
    else
      var rest := FrameAxes(data[1..], axis);
      assert forall s :: 0 < s < |data| ==> data[s] == data[1..][s - 1];
      if data[0].FrameEntry? then
        var r := [FrameAxis(data[0].frame, axis)] + rest;
        assert forall t :: 0 < t < |r| ==> r[t] == rest[t - 1];
        r
      else rest
  }

  /** The lengths along `axis` of the raw arrays among `data`, in order. */
  function RawLengths<V>(data: seq<Entry<V>>, axis: nat): (r: seq<nat>)
    ensures forall t :: 0 <= t < |r| ==> exists s :: 0 <= s < |data| && data[s].ArrayEntry? && r[t] == ArrayLength(data[s], axis)
    ensures forall s :: 0 <= s < |data| && data[s].ArrayEntry? ==> ArrayLength(data[s], axis) in r
    ensures |r| == 0 <==> forall s :: 0 <= s < |data| ==> !data[s].ArrayEntry?
  {
    if |data| == 0 then []
    else
      var rest := RawLengths(data[1..], axis);
      assert forall s :: 0 < s < |data| ==> data[s] == data[1..][s - 1];
      if data[0].ArrayEntry? then
        var r := [ArrayLength(data[0], axis)] + rest;
        assert forall t :: 0 < t < |r| ==> r[t] == rest[t - 1];
        r
      else rest
  }

  /** `x` is a label of every index in `indexes`. */
  predicate InAll(indexes: seq<seq<Label>>, x: Label) {
    forall t :: 0 <= t < |indexes| ==> x in indexes[t]
  }

  /** `x` is a label of some index in `indexes`. */
  predicate InAny(indexes: seq<seq<Label>>, x: Label) {
    exists t :: 0 <= t < |indexes| && x in indexes[t]
  }

  /** `_get_combined_index(indexes, intersect)`: a single index as it is,
      otherwise the labels common to all (when intersecting) or found in
      any of them. */
  function CombinedIndex(indexes: seq<seq<Label>>, intersect: bool): (r: seq<Label>)
    requires |indexes| > 0
    ensures intersect ==> forall x :: x in r <==> InAll(indexes, x)
    ensures !intersect ==> forall x :: x in r <==> InAny(indexes, x)
    decreases |indexes|
  {
    if |indexes| == 1 then indexes[0]
    else
      var n := |indexes|;
      var front := CombinedIndex(indexes[..n - 1], intersect);
      assert forall t :: 0 <= t < n - 1 ==> indexes[..n - 1][t] == indexes[t];
      if intersect then
        assert forall x :: InAll(indexes, x) <==> InAll(indexes[..n - 1], x) && x in indexes[n - 1];
        Intersection(front, indexes[n - 1])
      else
        assert forall x :: InAny(indexes, x) <==> InAny(indexes[..n - 1], x) || x in indexes[n - 1];
        Union(front, indexes[n - 1])
  }

  /** All entries of `xs` are equal: `len(set(xs)) <= 1`. */
  predicate AllEqual(xs: seq<nat>) {
    forall s, t :: 0 <= s < |xs| && 0 <= t < |xs| ==> xs[s] == xs[t]
  }

  /** `_extract_axis(data, axis, intersect)`: the combined axis of the
      frames when there are any; the default index `0 … n-1` when there are
      only raw arrays, all of length n along `axis`; empty otherwise. Raw
      arrays of different lengths raise ValueError, and a raw length that
      differs from the frames' combined axis raises AssertionError. */
  function ExtractAxis<V>(data: seq<Entry<V>>, axis: nat, intersect: bool): (r: Result<seq<Label>>)
    requires axis < 2
    ensures var raw := RawLengths(data, axis);
      r.Err? && r.error.ValueError? <==> !AllEqual(raw)
    ensures var raw, frames := RawLengths(data, axis), FrameAxes(data, axis);
      r.Err? && r.error.AssertionError? <==>
        AllEqual(raw) && |raw| > 0 && |frames| > 0 && raw[0] != |CombinedIndex(frames, intersect)|
    ensures r.Err? ==> r.error.ValueError? || r.error.AssertionError?
    ensures var raw, frames := RawLengths(data, axis), FrameAxes(data, axis);
      r.Ok? && |frames| > 0 ==> r.value == CombinedIndex(frames, intersect) && (|raw| > 0 ==> |r.value| == raw[0])
    ensures var raw, frames := RawLengths(data, axis), FrameAxes(data, axis);
      r.Ok? && |frames| == 0 ==> r.value == if |raw| > 0 then Range(raw[0]) else []
  {
    var frames, raw := FrameAxes(data, axis), RawLengths(data, axis);
    var index: Option<seq<Label>> := if |frames| > 0 then Some(CombinedIndex(frames, intersect)) else None;
    if |raw| > 0 then
      if !AllEqual(raw) then Err(ValueError("ndarrays must match shape on axis"))
      else if index.Some? then
        if raw[0] != |index.value| then Err(AssertionError("Length of data and index must match"))
        else Ok(index.value)
      else Ok(Range(raw[0]))
    else if index.Some? then Ok(index.value)
    else Ok([])
  }

  /** A frame-axis label is in some frame exactly when it is in one of the
      collected axes. */
  lemma UnitedFrameAxes<V>(data: seq<Entry<V>>, axis: nat, x: Label)
    requires |FrameAxes(data, axis)| > 0
    ensures x in CombinedIndex(FrameAxes(data, axis), false) <==>
      exists s :: 0 <= s < |data| && data[s].FrameEntry? && x in FrameAxis(data[s].frame, axis)
  {
    var frames := FrameAxes(data, axis);
    if InAny(frames, x) {
      var t :| 0 <= t < |frames| && x in frames[t];
      var s :| 0 <= s < |data| && data[s].FrameEntry? && frames[t] == FrameAxis(data[s].frame, axis);
    }
    if exists s :: 0 <= s < |data| && data[s].FrameEntry? && x in FrameAxis(data[s].frame, axis) {
      var s :| 0 <= s < |data| && data[s].FrameEntry? && x in FrameAxis(data[s].frame, axis);
      FrameAxisCollected(data, axis, s);
    }
  }

  /** Every frame axis is one of the collected frame axes. */
  lemma FrameAxisCollected<V>(data: seq<Entry<V>>, axis: nat, s: nat)
    requires s < |data| && data[s].FrameEntry?
    ensures exists t :: 0 <= t < |FrameAxes(data, axis)| && FrameAxes(data, axis)[t] == FrameAxis(data[s].frame, axis)
  {
    assert FrameAxis(data[s].frame, axis) in FrameAxes(data, axis);
  }

  /** A label common to the collected axes is a label of every frame. */
  lemma InAllFrames<V>(data: seq<Entry<V>>, axis: nat, x: Label, s: nat)
    requires InAll(FrameAxes(data, axis), x)
    requires s < |data| && data[s].FrameEntry?
    ensures x in FrameAxis(data[s].frame, axis)
  {
    FrameAxisCollected(data, axis, s);
  }

  /** A label missing from one collected axis is missing from some frame. */
  lemma NotInAllFrames<V>(data: seq<Entry<V>>, axis: nat, x: Label)
    requires !InAll(FrameAxes(data, axis), x)
    ensures exists s :: 0 <= s < |data| && data[s].FrameEntry? && x !in FrameAxis(data[s].frame, axis)
  {
    var frames := FrameAxes(data, axis);
    var t :| 0 <= t < |frames| && x !in frames[t];
    var s :| 0 <= s < |data| && data[s].FrameEntry? && frames[t] == FrameAxis(data[s].frame, axis);
  }

  /** A label of the intersected frame axes is a label of every frame. */
  lemma IntersectedFrameAxes<V>(data: seq<Entry<V>>, axis: nat, x: Label)
    requires |FrameAxes(data, axis)| > 0
    ensures x in CombinedIndex(FrameAxes(data, axis), true) <==>
      forall s :: 0 <= s < |data| && data[s].FrameEntry? ==> x in FrameAxis(data[s].frame, axis)
  {
    if InAll(FrameAxes(data, axis), x) {
      forall s | 0 <= s < |data| && data[s].FrameEntry? ensures x in FrameAxis(data[s].frame, axis) {
        InAllFrames(data, axis, x, s);
      }
    } else {
      NotInAllFrames(data, axis, x);
    }
  }

  /** When frames are present, the extracted axis holds exactly the labels
      of the frames: those of any frame when uniting, those of every frame
      when intersecting. */
  lemma ExtractAxisLabels<V>(data: seq<Entry<V>>, axis: nat, intersect: bool, x: Label)
    requires axis < 2 && ExtractAxis(data, axis, intersect).Ok?
    requires exists s :: 0 <= s < |data| && data[s].FrameEntry?
    ensures var r := ExtractAxis(data, axis, intersect).value;
      && (!intersect ==> (x in r <==> exists s :: 0 <= s < |data| && data[s].FrameEntry? && x in FrameAxis(data[s].frame, axis)))
      && (intersect ==> (x in r <==> forall s :: 0 <= s < |data| && data[s].FrameEntry? ==> x in FrameAxis(data[s].frame, axis)))
  {
    assert |FrameAxes(data, axis)| > 0;
    if intersect {
      IntersectedFrameAxes(data, axis, x);
    } else {
      UnitedFrameAxes(data, axis, x);
    }
  }

  /** With raw arrays only, all of length n, the axis is `0 … n-1`. */
  lemma ExtractAxisRawOnly<V>(data: seq<Entry<V>>, axis: nat, n: nat)
    requires axis < 2 && |data| > 0
    requires forall s :: 0 <= s < |data| ==> data[s].ArrayEntry? && ArrayLength(data[s], axis) == n
    ensures ExtractAxis(data, axis, false) == Ok(Range(n))
    ensures ExtractAxis(data, axis, true) == Ok(Range(n))
  {
    var raw := RawLengths(data, axis);
    assert data[0].ArrayEntry?;
    assert |raw| > 0;
    forall t | 0 <= t < |raw| ensures raw[t] == n {
      var s :| 0 <= s < |data| && data[s].ArrayEntry? && raw[t] == ArrayLength(data[s], axis);
    }
  }

  // ---------------------------------------------------------------------
  // _ensure_like_indices

  /** Position `b * |ut| + a` of the conformed vectors pairs time `ut[a]`
      with panel `up[b]`. */
  predicate PairsAt(ut: seq<Label>, up: seq<Label>, t: seq<Label>, p: seq<Label>, a: nat, b: nat)
    requires a < |ut| && b < |up|
  {
    b * |ut| + a < |t| && b * |ut| + a < |p| && t[b * |ut| + a] == ut[a] && p[b * |ut| + a] == up[b]
  }

  /** `t` and `p` list every (time, panel) combination of `ut` and `up`,
      panel-major. */
  predicate Conformed(ut: seq<Label>, up: seq<Label>, t: seq<Label>, p: seq<Label>) {
    && |t| == |p| == |up| * |ut|
    && forall a, b :: 0 <= a < |ut| && 0 <= b < |up| ==> PairsAt(ut, up, t, p, a, b)
  }

  /** One combination sits where tiling and repeating put it. */
  lemma TileRepeatPair(ut: seq<Label>, up: seq<Label>, a: nat, b: nat)
    requires a < |ut| && b < |up|
    ensures PairsAt(ut, up, Tile(ut, |up|), Repeat(up, |ut|), a, b)
  {
    TileAt(ut, |up|, b, a);
    RepeatAt(up, |ut|, b, a);
  }

  /** Tiling the times and repeating the panels conforms them. */
  lemma TileRepeatConformed(ut: seq<Label>, up: seq<Label>)
    ensures Conformed(ut, up, Tile(ut, |up|), Repeat(up, |ut|))
  {
    forall a: nat, b: nat | a < |ut| && b < |up| ensures PairsAt(ut, up, Tile(ut, |up|), Repeat(up, |ut|), a, b) {
      TileRepeatPair(ut, up, a, b);
    }
  }

  /** `_ensure_like_indices(time, panels)`: when `time` has no repeats it
      becomes its sorted labels tiled once per distinct panel, and when
      `panels` has no repeats it becomes its sorted labels each repeated
      once per distinct time; an input with repeats is returned as it is. */
  function EnsureLikeIndices(time: seq<Label>, panels: seq<Label>): (r: (seq<Label>, seq<Label>))
    ensures !Distinct(time) ==> r.0 == time
    ensures !Distinct(panels) ==> r.1 == panels
    ensures Distinct(time) && Distinct(panels) ==>
      |r.0| == |panels| * |time| && Conformed(SortedUnique(time), SortedUnique(panels), r.0, r.1)
    ensures Distinct(time) ==> r.0 == Tile(SortedUnique(time), |SortedUnique(panels)|)
    ensures Distinct(panels) ==> r.1 == Repeat(SortedUnique(panels), |SortedUnique(time)|)
  {
    var uPanels, uTime := SortedUnique(panels), SortedUnique(time);
    SortedUniqueLength(time);
    SortedUniqueLength(panels);
    TileRepeatConformed(uTime, uPanels);
    var time' := if |uTime| == |time| then Tile(uTime, |uPanels|) else time;
    var panels' := if |uPanels| == |panels| then Repeat(uPanels, |uTime|) else panels;
    (time', panels')
  }

  /** A combination lined up by `PairsAt` occurs at a common position. */
  lemma PairsAtWitness(ut: seq<Label>, up: seq<Label>, t: seq<Label>, p: seq<Label>, a: nat, b: nat)
    requires a < |ut| && b < |up| && PairsAt(ut, up, t, p, a, b)
    ensures exists s :: 0 <= s < |t| && s < |p| && t[s] == ut[a] && p[s] == up[b]
  {
    var s := b * |ut| + a;
    assert 0 <= s < |t| && s < |p| && t[s] == ut[a] && p[s] == up[b];
  }

  /** With both inputs free of repeats, every (time, panel) pair occurs in
      the conformed vectors, at one common position. */
  lemma EnsureLikeIndicesPairs(time: seq<Label>, panels: seq<Label>, x: Label, y: Label)
    requires Distinct(time) && Distinct(panels) && x in time && y in panels
    ensures var r := EnsureLikeIndices(time, panels);
      exists s :: 0 <= s < |r.0| && r.0[s] == x && r.1[s] == y
  {
    var ut, up := SortedUnique(time), SortedUnique(panels);
    var r := EnsureLikeIndices(time, panels);
    assert Conformed(ut, up, r.0, r.1);
    assert x in ut && y in up;
    var a :| 0 <= a < |ut| && ut[a] == x;
    var b :| 0 <= b < |up| && up[b] == y;
    PairsAtWitness(ut, up, r.0, r.1, a, b);
  }

  /** A sorted sequence is its own sorted unique labels. */
  lemma SortedUniqueOfSorted(xs: seq<Label>)
    requires Sorted(xs)
    ensures SortedUnique(xs) == xs
  {
    SortedUniqueCanonical(SortedUnique(xs), xs);
  }

  /** Sorted inputs are tiled and repeated as they stand. */
  lemma EnsureLikeIndicesSorted(time: seq<Label>, panels: seq<Label>)
    requires Sorted(time) && Sorted(panels)
    ensures EnsureLikeIndices(time, panels) == (Tile(time, |panels|), Repeat(panels, |time|))
  {
    SortedUniqueOfSorted(time);
    SortedUniqueOfSorted(panels);
    SortedUniqueLength(time);
    SortedUniqueLength(panels);
  }

  /** Three copies of a sequence. */
  lemma TileThree(u: seq<Label>)
    ensures Tile(u, 3) == u + u + u
  {
    assert Tile(u, 1) == u + Tile(u, 0);
    assert Tile(u, 2) == u + Tile(u, 1);
  }

  /** Each of three labels three times in a row. */
  lemma RepeatThree(x: Label, y: Label, z: Label)
    ensures Repeat([x, y, z], 3) == [x, x, x, y, y, y, z, z, z]
  {
    var u := [x, y, z];
    assert u[1..][1..][1..] == [];
    assert Repeat(u[1..][1..], 3) == [z, z, z] + Repeat(u[1..][1..][1..], 3);
    assert Repeat(u[1..], 3) == [y, y, y] + Repeat(u[1..][1..], 3);
    assert Repeat(u, 3) == [x, x, x] + Repeat(u[1..], 3);
  }

  /** The first example of the `panel_index` documentation: years 1960 to
      1962 and panels A, B, C give the years tiled and the panels each
      repeated three times. */
  lemma EnsureLikeIndicesExample()
    ensures var years := [IntLabel(1960), IntLabel(1961), IntLabel(1962)];
      var abc := [StrLabel("A"), StrLabel("B"), StrLabel("C")];
      EnsureLikeIndices(years, abc) == (years + years + years,
        [StrLabel("A"), StrLabel("A"), StrLabel("A"), StrLabel("B"), StrLabel("B"), StrLabel("B"),
         StrLabel("C"), StrLabel("C"), StrLabel("C")])
  {
    var years := [IntLabel(1960), IntLabel(1961), IntLabel(1962)];
    var abc := [StrLabel("A"), StrLabel("B"), StrLabel("C")];
    assert StrLess("A", "B") && StrLess("B", "C") && StrLess("A", "C");
    assert Sorted(years) && Sorted(abc);
    EnsureLikeIndicesSorted(years, abc);
    TileThree(years);
    RepeatThree(StrLabel("A"), StrLabel("B"), StrLabel("C"));
  }

  /** The second example of the `panel_index` documentation: years that
      already repeat and panels that already tile are left as they are. */
  lemma EnsureLikeIndicesRepeatsExample()
    ensures var y0, y1, y2 := IntLabel(1960), IntLabel(1961), IntLabel(1962);
      var a, b, c := StrLabel("A"), StrLabel("B"), StrLabel("C");
      var years := [y0, y0, y0, y1, y1, y1, y2, y2, y2];
      var panels := [a, b, c, a, b, c, a, b, c];
      EnsureLikeIndices(years, panels) == (years, panels)
  {
    var y0, y1, y2 := IntLabel(1960), IntLabel(1961), IntLabel(1962);
    var a, b, c := StrLabel("A"), StrLabel("B"), StrLabel("C");
    var years := [y0, y0, y0, y1, y1, y1, y2, y2, y2];
    var panels := [a, b, c, a, b, c, a, b, c];
    assert years[0] == years[1];
    assert panels[0] == panels[3];
  }
}

=== FILE: labels.dfy ===
/** Axis labels and the index operations the Panel code consumes from its
    `Index` collaborator: label lookup, union, intersection, the default
    integer index, and the sorted-unique, tile and repeat helpers that
    `_ensure_like_indices` builds on. */
module Labels {
  import opened Results
  import opened Seqs

  /** A label as the Panel code sees one: an integer (the default index
      `0..n-1`) or a string. */
  datatype Label = IntLabel(n: int) | StrLabel(s: string)

  /** Position of the first occurrence of `x` in `xs`, or None when absent:
      one entry of the indexer that `Index.reindex` hands back. */
  function IndexOf(xs: seq<Label>, x: Label): (r: Option<nat>)
    ensures r.None? <==> x !in xs
    ensures r.Some? ==> r.value < |xs| && xs[r.value] == x
    ensures r.Some? ==> forall k :: 0 <= k < r.value ==> xs[k] != x
  {
    if |xs| == 0 then None
    else if xs[0] == x then Some(0)
    else
      match IndexOf(xs[1..], x)
      case None => None
      case Some(k) =>
        assert forall q :: 0 < q <= k ==> xs[q] == xs[1..][q - 1];
        Some(k + 1)
  }

  /** On an axis without repeats the label at position `i` is found at `i`. */
  lemma IndexOfDistinct(xs: seq<Label>, i: nat)
    requires Distinct(xs) && i < |xs|
    ensures IndexOf(xs, xs[i]) == Some(i)
  {
    var r := IndexOf(xs, xs[i]);
    assert xs[i] in xs;
  }

  /** The labels of `a` followed by those of `b` that `a` lacks, each once:
      how `Index.__add__` combines the item axes of two panels. */
  function Union(a: seq<Label>, b: seq<Label>): (r: seq<Label>)
    ensures |r| >= |a| && r[..|a|] == a
    ensures forall x :: x in r <==> x in a || x in b
    ensures Distinct(a) ==> Distinct(r)
    decreases |b|
  {
    if |b| == 0 then a
    else if b[0] in a then
      var r := Union(a, b[1..]);
      assert forall x :: x in b ==> x == b[0] || x in b[1..];
      r
    else
      var r := Union(a + [b[0]], b[1..]);
      assert forall x :: x in b ==> x == b[0] || x in b[1..];
      assert r[..|a| + 1][..|a|] == r[..|a|];
      r
  }

  /** Adding labels that are all present already changes nothing. */
  lemma {:induction false} UnionSubsumed(a: seq<Label>, b: seq<Label>)
    requires forall x :: x in b ==> x in a
    ensures Union(a, b) == a
    decreases |b|
  {
    if |b| > 0 {
      assert b[0] in b;
      UnionSubsumed(a, b[1..]);
    }
  }

  /** The labels of `a` that `b` also holds, in the order of `a`. */
  function Intersection(a: seq<Label>, b: seq<Label>): (r: seq<Label>)
    ensures forall x :: x in r <==> x in a && x in b
    ensures Subseq(r, a)
    ensures Distinct(a) ==> Distinct(r)
  {
    if |a| == 0 then []
    else
      var rest := Intersection(a[1..], b);
      assert forall x :: x in a <==> x == a[0] || x in a[1..];
      if a[0] in b then
        assert Distinct(a) ==> a[0] !in a[1..];
        assert Distinct(a) ==> Distinct(a[1..]) by {
          if Distinct(a) {
            forall i, j | 0 <= i < j < |a[1..]| ensures a[1..][i] != a[1..][j] {
              assert a[1..][i] == a[i + 1] && a[1..][j] == a[j + 1];
            }
          }
        }
        var r := [a[0]] + rest;
        assert forall j :: 0 < j < |r| ==> r[j] == rest[j - 1];
        r
      else
        assert Distinct(a) ==> Distinct(a[1..]) by {
          if Distinct(a) {
            forall i, j | 0 <= i < j < |a[1..]| ensures a[1..][i] != a[1..][j] {
              assert a[1..][i] == a[i + 1] && a[1..][j] == a[j + 1];
            }
          }
        }
        rest
  }

  /** The default index `0, 1, …, n-1` of `_default_index(n)` and `np.arange(n)`. */
  function Range(n: nat): (r: seq<Label>)
    ensures |r| == n && Distinct(r)
    ensures forall i :: 0 <= i < n ==> r[i] == IntLabel(i)
  {
    seq(n, i => IntLabel(i))
  }

  // ---------------------------------------------------------------------
  // Ordering, as `np.unique` sorts: integers before strings (the Python 2
  // ordering of mixed object arrays), integers numerically, strings
  // lexicographically by character code.

  predicate StrLess(a: string, b: string)
    decreases |a|
  {
    if |a| == 0 then |b| > 0
    else |b| > 0 && (a[0] < b[0] || (a[0] == b[0] && StrLess(a[1..], b[1..])))
  }

  predicate Less(x: Label, y: Label) {
    match (x, y)
    case (IntLabel(m), IntLabel(n)) => m < n
    case (IntLabel(_), StrLabel(_)) => true
    case (StrLabel(_), IntLabel(_)) => false
    case (StrLabel(s), StrLabel(t)) => StrLess(s, t)
  }

  lemma {:induction false} StrLessIrreflexive(a: string)
    ensures !StrLess(a, a)
    decreases |a|
  {
    if |a| > 0 {
      StrLessIrreflexive(a[1..]);
    }
  }

  lemma {:induction false} StrLessTransitive(a: string, b: string, c: string)
    requires StrLess(a, b) && StrLess(b, c)
    ensures StrLess(a, c)
    decreases |a|
  {
    if |a| > 0 && a[0] == b[0] && b[0] == c[0] {
      StrLessTransitive(a[1..], b[1..], c[1..]);
    }
  }

  lemma {:induction false} StrLessTotal(a: string, b: string)
    requires a != b
    ensures StrLess(a, b) || StrLess(b, a)
    decreases |a|
  {
    if |a| > 0 && |b| > 0 && a[0] == b[0] {
      assert a == [a[0]] + a[1..] && b == [b[0]] + b[1..];
      StrLessTotal(a[1..], b[1..]);
    }
  }

  /** `Less` is a strict total order on labels. */
  lemma LessStrictTotal()
    ensures forall x :: !Less(x, x)
    ensures forall x, y, z :: Less(x, y) && Less(y, z) ==> Less(x, z)
    ensures forall x, y :: x != y ==> Less(x, y) || Less(y, x)
  {
    forall x ensures !Less(x, x) {
      if x.StrLabel? { StrLessIrreflexive(x.s); }
    }
    forall x, y, z | Less(x, y) && Less(y, z) ensures Less(x, z) {
      if x.StrLabel? && y.StrLabel? && z.StrLabel? { StrLessTransitive(x.s, y.s, z.s); }
    }
    forall x, y | x != y ensures Less(x, y) || Less(y, x) {
      if x.StrLabel? && y.StrLabel? { StrLessTotal(x.s, y.s); }
    }
  }

  /** Strictly increasing, hence without repeats. */
  predicate Sorted(s: seq<Label>) {
    forall i, j :: 0 <= i < j < |s| ==> Less(s[i], s[j])
  }

  /** Insert `x` into the sorted `s` unless it is already there. */
  function Insert(s: seq<Label>, x: Label): (r: seq<Label>)
    requires Sorted(s)
    ensures Sorted(r)
    ensures forall y :: y in r <==> y == x || y in s
    ensures |r| == if x in s then |s| else |s| + 1
  {
    LessStrictTotal();
    if |s| == 0 then [x]
    else if x == s[0] then s
    else if Less(x, s[0]) then
      assert x !in s;
      [x] + s
    else
      var rest := Insert(s[1..], x);
      assert forall y :: y in s <==> y == s[0] || y in s[1..];
      assert forall j :: 0 <= j < |s| - 1 ==> s[1..][j] == s[j + 1];
      var r := [s[0]] + rest;
      assert forall j :: 0 < j < |r| ==> r[j] == rest[j - 1];
      assert forall j :: 0 < j < |r| ==> Less(s[0], r[j]) by {
        forall j | 0 < j < |r| ensures Less(s[0], r[j]) {
          assert r[j] in rest;
          if r[j] != x {
            var q :| 0 <= q < |s[1..]| && s[1..][q] == r[j];
          }
        }
      }
      r
  }

  /** The distinct labels of `xs` in ascending order: `np.unique(xs)`. */
  function SortedUnique(xs: seq<Label>): (r: seq<Label>)
    ensures Sorted(r)
    ensures forall y :: y in r <==> y in xs
    ensures |r| <= |xs|
  {
    if |xs| == 0 then []
    else
      var r := Insert(SortedUnique(xs[1..]), xs[0]);
      assert forall y :: y in xs <==> y == xs[0] || y in xs[1..];
      r
  }

  /** A sorted sequence has no repeats. */
  lemma SortedDistinct(s: seq<Label>)
    requires Sorted(s)
    ensures Distinct(s)
  {
    LessStrictTotal();
  }

  /** Two sorted sequences with the same elements are equal: `SortedUnique`
      is the only sequence its contract allows. */
  lemma {:induction false} SortedUniqueCanonical(a: seq<Label>, b: seq<Label>)
    requires Sorted(a) && Sorted(b)
    requires forall y :: y in a <==> y in b
    ensures a == b
    decreases |a|
  {
    LessStrictTotal();
    if |a| == 0 {
      HeadIn(b);
    } else {
      assert a[0] in b && b[0] in b;
      assert a[0] == b[0];
      forall y ensures y in a[1..] <==> y in b[1..] {
        assert y in a <==> y == a[0] || y in a[1..];
        assert y in b <==> y == b[0] || y in b[1..];
        if y in a[1..] {
          var q :| 0 <= q < |a[1..]| && a[1..][q] == y;
          assert a[q + 1] == y;
        }
        if y in b[1..] {
          var q :| 0 <= q < |b[1..]| && b[1..][q] == y;
          assert b[q + 1] == y;
        }
      }
      SortedUniqueCanonical(a[1..], b[1..]);
      assert a == [a[0]] + a[1..] && b == [b[0]] + b[1..];
    }
  }

  /** `len(np.unique(xs)) == len(xs)` holds exactly when `xs` has no repeats:
      the test `_ensure_like_indices` uses to decide whether to tile. */
  lemma {:induction false} SortedUniqueLength(xs: seq<Label>)
    ensures |SortedUnique(xs)| == |xs| <==> Distinct(xs)
    decreases |xs|
  {
    if |xs| > 0 {
      SortedUniqueLength(xs[1..]);
      var t := xs[1..];
      assert forall j :: 0 <= j < |t| ==> t[j] == xs[j + 1];
      if Distinct(xs) {
        assert Distinct(t);
        assert xs[0] !in t;
      } else {
        if Distinct(t) {
          var i, j :| 0 <= i < j < |xs| && xs[i] == xs[j];
          assert i == 0;
          assert xs[0] in t;
        }
      }
    }
  }

  // ---------------------------------------------------------------------
  // np.tile and np.repeat on one-dimensional label arrays.

  /** `np.tile(u, m)`: the whole of `u`, `m` times over. */
  function Tile(u: seq<Label>, m: nat): (r: seq<Label>)
    ensures |r| == m * |u|
  {
    if m == 0 then [] else u + Tile(u, m - 1)
  }

  /** `np.repeat(u, m)`: every label of `u`, `m` times in a row. */
  function Repeat(u: seq<Label>, m: nat): (r: seq<Label>)
    ensures |r| == |u| * m
  {
    if |u| == 0 then [] else seq(m, _ => u[0]) + Repeat(u[1..], m)
  }

  /** Block `b` of a tiling is a copy of `u`. */
  lemma {:induction false} TileAt(u: seq<Label>, m: nat, b: nat, a: nat)
    requires b < m && a < |u|
    ensures b * |u| + a < |Tile(u, m)| && Tile(u, m)[b * |u| + a] == u[a]
    decreases m
  {
    if b > 0 {
      TileAt(u, m - 1, b - 1, a);
      assert b * |u| + a == |u| + ((b - 1) * |u| + a);
    }
  }

  /** Block `b` of a repetition holds `m` copies of `u[b]`. */
  lemma {:induction false} RepeatAt(u: seq<Label>, m: nat, b: nat, c: nat)
    requires b < |u| && c < m
    ensures b * m + c < |Repeat(u, m)| && Repeat(u, m)[b * m + c] == u[b]
    decreases b
  {
    if b > 0 {
      RepeatAt(u[1..], m, b - 1, c);
      assert b * m + c == m + ((b - 1) * m + c);
    }
  }
}

=== FILE: longform.dfy ===
/** `to_frame`: the wide panel stacked into a long table with one row per
    (major, minor) pair, the pair given as codes into the two axes, and one
    column per item. */
module LongFormat {
  import opened Results
  import opened Seqs
  import opened Labels
  import opened Panels

  /** A long table: the two index levels and, per row, the codes into
      them; one column of cells per item. */
  datatype LongFrame<V> = LongFrame(
    majorLevel: seq<Label>, minorLevel: seq<Label>,
    majorCodes: seq<nat>, minorCodes: seq<nat>,
    columns: seq<Label>, data: seq<seq<Option<V>>>)
  {
    function Rows(): nat {
      |majorCodes|
    }

    /** Both code vectors and every column have one entry per row. */
    predicate Shaped() {
      && |minorCodes| == |majorCodes|
      && |data| == |columns|
      && forall c :: 0 <= c < |data| ==> |data[c]| == |majorCodes|
    }
  }

  /** Row j of the major-code grid repeats j, k times. */
  function MajorGrid(n: nat, k: nat): (g: seq<seq<nat>>)
    ensures |g| == n && Uniform(g, k)
    ensures forall j, c :: 0 <= j < n && 0 <= c < k ==> g[j][c] == j
  {
    seq(n, j requires 0 <= j < n => seq(k, _ => j as nat))
  }

  /** Every row of the minor-code grid is 0, 1, …, k-1. */
  function MinorGrid(n: nat, k: nat): (g: seq<seq<nat>>)
    ensures |g| == n && Uniform(g, k)
    ensures forall j, c :: 0 <= j < n && 0 <= c < k ==> g[j][c] == c
  {
    seq(n, _ => seq(k, c requires 0 <= c < k => c as nat))
  }

  /** `np.arange(n).repeat(k)`, grouped by major position. */
  function MajorCodes(n: nat, k: nat): (r: seq<nat>)
    ensures |r| == n * k
  {
    FlattenLength(MajorGrid(n, k), k);
    Flatten(MajorGrid(n, k))
  }

  /** `np.arange(k)` stacked `n` times, then flattened. */
  function MinorCodes(n: nat, k: nat): (r: seq<nat>)
    ensures |r| == n * k
  {
    FlattenLength(MinorGrid(n, k), k);
    Flatten(MinorGrid(n, k))
  }

  /** Position `t` of the major codes holds `t / k`. */
  lemma MajorCodesAt(n: nat, k: nat, t: nat)
    requires t < n * k
    ensures t / k < n && MajorCodes(n, k)[t] == t / k
  {
    var g := MajorGrid(n, k);
    FlattenAtQuotient(g, k, t);
    assert g[t / k][t % k] == t / k;
  }

  /** Position `t` of the minor codes holds `t % k`. */
  lemma MinorCodesAt(n: nat, k: nat, t: nat)
    requires t < n * k
    ensures t % k < k && MinorCodes(n, k)[t] == t % k
  {
    var g := MinorGrid(n, k);
    FlattenAtQuotient(g, k, t);
    assert g[t / k][t % k] == t % k;
  }

  /** Position `t` of the flattened (major, minor) grid belongs to the pair
      (t / k, t % k). */
  lemma CodesAt(n: nat, k: nat, t: nat)
    requires t < n * k
    ensures t / k < n && t % k < k
    ensures MajorCodes(n, k)[t] == t / k && MinorCodes(n, k)[t] == t % k
  {
    MajorCodesAt(n, k, t);
    MinorCodesAt(n, k, t);
  }

  /** Every item holds an observation at (j, k). */
  predicate Complete<V>(p: Panel<V>, j: nat, k: nat)
    requires p.Shaped() && j < |p.major| && k < |p.minor|
  {
    forall i :: 0 <= i < |p.items| ==> p.values[i][j][k].Some?
  }

  /** Per (major, minor) pair, whether every item is observed there. */
  function CompleteGrid<V>(p: Panel<V>): (g: seq<seq<bool>>)
    requires p.Shaped()
    ensures |g| == |p.major| && Uniform(g, |p.minor|)
    ensures forall j, k :: 0 <= j < |p.major| && 0 <= k < |p.minor| ==> (g[j][k] <==> Complete(p, j, k))
  {
    seq(|p.major|, j requires 0 <= j < |p.major| =>
      seq(|p.minor|, k requires 0 <= k < |p.minor| =>
        forall i :: 0 <= i < |p.items| ==> p.values[i][j][k].Some?))
  }

  /** `notnull(values).all(axis=0).ravel()`: the completeness of every
      (major, minor) pair in row-major order. */
  function CompleteMask<V>(p: Panel<V>): (mask: seq<bool>)
    requires p.Shaped()
    ensures |mask| == |p.major| * |p.minor|
  {
    FlattenLength(CompleteGrid(p), |p.minor|);
    Flatten(CompleteGrid(p))
  }

  /** Entry `t` of the mask is the completeness of pair (t / K, t % K). */
  lemma CompleteMaskAt<V>(p: Panel<V>, t: nat)
    requires p.Shaped() && t < |p.major| * |p.minor|
    ensures t / |p.minor| < |p.major| && t % |p.minor| < |p.minor|
    ensures CompleteMask(p)[t] <==> Complete(p, t / |p.minor|, t % |p.minor|)
  {
    FlattenAtQuotient(CompleteGrid(p), |p.minor|, t);
  }

  /** Every item's plane flattens to N*K cells. */
  lemma PlanesFlatten<V>(p: Panel<V>)
    requires p.Shaped()
    ensures forall i :: 0 <= i < |p.items| ==> |Flatten(p.values[i])| == |p.major| * |p.minor|
  {
    forall i | 0 <= i < |p.items| ensures |Flatten(p.values[i])| == |p.major| * |p.minor| {
      assert Uniform(p.values[i], |p.minor|);
      FlattenLength(p.values[i], |p.minor|);
    }
  }

  /** `xs[selector]`: the whole of `xs` when not filtering, the masked
      entries otherwise. */
  function Select<T(==)>(xs: seq<T>, filter: bool, mask: seq<bool>): seq<T>
    requires |xs| == |mask|
  {
    if filter then Compress(xs, mask) else xs
  }

  /** `to_frame(filter_observations)`: ravel every item's plane into a
      column, with the major and minor codes of each row, keeping only the
      complete rows when filtering. */
  function ToFrame<V(==)>(p: Panel<V>, filter: bool): (f: LongFrame<V>)
    requires p.Shaped()
    ensures f.Shaped()
    ensures f.majorLevel == p.major && f.minorLevel == p.minor && f.columns == p.items
  {
    var n, k := |p.major|, |p.minor|;
    var mask := CompleteMask(p);
    PlanesFlatten(p);
    var data := seq(|p.items|, i requires 0 <= i < |p.items| => Select(Flatten(p.values[i]), filter, mask));
    var f := LongFrame(p.major, p.minor, Select(MajorCodes(n, k), filter, mask), Select(MinorCodes(n, k), filter, mask), p.items, data);
    assert f.Shaped() by {
      if filter {
        CompressKept(MajorCodes(n, k), mask);
        CompressKept(MinorCodes(n, k), mask);
        forall i | 0 <= i < |p.items| ensures |data[i]| == |f.majorCodes| {
          CompressKept(Flatten(p.values[i]), mask);
        }
      }
    }
    f
  }

  // ---------------------------------------------------------------------
  // What the rows hold

  /** Row-major order on (major, minor) pairs. */
  predicate RowBefore(j1: nat, k1: nat, j2: nat, k2: nat) {
    j1 < j2 || (j1 == j2 && k1 < k2)
  }

  /** A positive multiple of `k` is at least `k`. */
  lemma MulAtLeast(x: int, k: nat)
    requires x >= 1
    ensures x * k >= k
  {
    assert x * k == (x - 1) * k + k;
  }

  /** The pair (j, c) of an n by k grid lies within its flattening. */
  lemma PairInRange(j: nat, c: nat, n: nat, k: nat)
    requires j < n && c < k
    ensures j * k + c < n * k
  {
    MulAtLeast(n - j, k);
    assert n * k == j * k + (n - j) * k;
  }

  /** Flattened positions in increasing order are pairs in row-major
      order. */
  lemma DivModOrder(a: nat, b: nat, k: nat)
    requires a < b && k > 0
    ensures RowBefore(a / k, a % k, b / k, b % k)
  {
    var qa, ra, qb, rb := a / k, a % k, b / k, b % k;
    assert a == qa * k + ra && b == qb * k + rb;
    assert (qa - qb) * k == (rb - ra) + (a - b) by {
      assert (qa - qb) * k == qa * k - qb * k;
    }
    if qa > qb {
      MulAtLeast(qa - qb, k);
    }
  }

  /** The pair (j, c) sits at flattened position j*k + c. */
  lemma DivModOf(j: nat, c: nat, k: nat)
    requires c < k
    ensures (j * k + c) / k == j && (j * k + c) % k == c
  {
    var t := j * k + c;
    var q, r := t / k, t % k;
    assert t == q * k + r;
    assert (q - j) * k == c - r by {
      assert (q - j) * k == q * k - j * k;
    }
    if q > j {
      MulAtLeast(q - j, k);
    } else if q < j {
      MulAtLeast(j - q, k);
    }
  }

  /** The flattened (major, minor) position row `r` of the long frame was
      taken from. */
  function RowSource<V(==)>(p: Panel<V>, filter: bool, r: nat): (t: nat)
    requires p.Shaped() && r < ToFrame(p, filter).Rows()
    ensures t < |p.major| * |p.minor|
    ensures filter ==> CompleteMask(p)[t]
    ensures !filter ==> t == r
  {
    var mask := CompleteMask(p);
    if filter then
      CompressKept(MajorCodes(|p.major|, |p.minor|), mask);
      Kept(mask)[r]
    else r
  }

  /** Row `r` holds the codes of its source pair and, in every item column,
      that item's cell at the pair. */
  lemma ToFrameRow<V>(p: Panel<V>, filter: bool, r: nat)
    requires p.Shaped() && r < ToFrame(p, filter).Rows()
    ensures var f, t, k := ToFrame(p, filter), RowSource(p, filter, r), |p.minor|;
      && t / k < |p.major| && t % k < k
      && f.majorCodes[r] == t / k && f.minorCodes[r] == t % k
      && forall i :: 0 <= i < |p.items| ==> f.data[i][r] == p.values[i][t / k][t % k]
  {
    var f, t, n, k := ToFrame(p, filter), RowSource(p, filter, r), |p.major|, |p.minor|;
    var mask := CompleteMask(p);
    PlanesFlatten(p);
    CodesAt(n, k, t);
    if filter {
      CompressKept(MajorCodes(n, k), mask);
      CompressKept(MinorCodes(n, k), mask);
    }
    forall i | 0 <= i < |p.items| ensures f.data[i][r] == p.values[i][t / k][t % k] {
      assert Uniform(p.values[i], k);
      FlattenAtQuotient(p.values[i], k, t);
      if filter {
        CompressKept(Flatten(p.values[i]), mask);
      }
    }
  }

  /** Every row of `to_frame` names a (major, minor) pair by its codes and
      holds, in each item's column, that item's cell at the pair; the rows
      run in row-major order, each pair at most once. */
  lemma ToFrameRows<V>(p: Panel<V>, filter: bool)
    requires p.Shaped()
    ensures var f := ToFrame(p, filter);
      forall r :: 0 <= r < f.Rows() ==>
        && f.majorCodes[r] < |p.major| && f.minorCodes[r] < |p.minor|
        && forall i :: 0 <= i < |p.items| ==> f.data[i][r] == p.values[i][f.majorCodes[r]][f.minorCodes[r]]
    ensures var f := ToFrame(p, filter);
      forall r, s :: 0 <= r < s < f.Rows() ==>
        RowBefore(f.majorCodes[r], f.minorCodes[r], f.majorCodes[s], f.minorCodes[s])
  {
    var f := ToFrame(p, filter);
    forall r | 0 <= r < f.Rows()
      ensures && f.majorCodes[r] < |p.major| && f.minorCodes[r] < |p.minor|
              && forall i :: 0 <= i < |p.items| ==> f.data[i][r] == p.values[i][f.majorCodes[r]][f.minorCodes[r]]
    {
      ToFrameRow(p, filter, r);
    }
    forall r, s | 0 <= r < s < f.Rows()
      ensures RowBefore(f.majorCodes[r], f.minorCodes[r], f.majorCodes[s], f.minorCodes[s])
    {
      ToFrameRow(p, filter, r);
      ToFrameRow(p, filter, s);
      if filter {
        CompressKept(MajorCodes(|p.major|, |p.minor|), CompleteMask(p));
      }
      DivModOrder(RowSource(p, filter, r), RowSource(p, filter, s), |p.minor|);
    }
  }

  /** `to_frame(False)`: N*K rows, row `r` for the pair (r / K, r % K). */
  lemma ToFrameUnfiltered<V>(p: Panel<V>)
    requires p.Shaped()
    ensures var f := ToFrame(p, false);
      && f.Rows() == |p.major| * |p.minor|
      && forall r :: 0 <= r < f.Rows() ==> f.majorCodes[r] == r / |p.minor| && f.minorCodes[r] == r % |p.minor|
  {
    var f := ToFrame(p, false);
    forall r | 0 <= r < f.Rows() ensures f.majorCodes[r] == r / |p.minor| && f.minorCodes[r] == r % |p.minor| {
      ToFrameRow(p, false, r);
    }
  }

  /** `to_frame(True)`: exactly the pairs observed in every item, each
      holding only present cells. */
  lemma ToFrameFiltered<V>(p: Panel<V>)
    requires p.Shaped()
    ensures var f := ToFrame(p, true);
      forall r :: 0 <= r < f.Rows() ==>
        && f.majorCodes[r] < |p.major| && f.minorCodes[r] < |p.minor|
        && Complete(p, f.majorCodes[r], f.minorCodes[r])
        && forall i :: 0 <= i < |p.items| ==> f.data[i][r].Some?
    ensures var f := ToFrame(p, true);
      forall j, k :: 0 <= j < |p.major| && 0 <= k < |p.minor| && Complete(p, j, k) ==>
        exists r :: 0 <= r < f.Rows() && f.majorCodes[r] == j && f.minorCodes[r] == k
  {
    var f := ToFrame(p, true);
    var n, k := |p.major|, |p.minor|;
    var mask := CompleteMask(p);
    forall r | 0 <= r < f.Rows()
      ensures && f.majorCodes[r] < n && f.minorCodes[r] < k
              && Complete(p, f.majorCodes[r], f.minorCodes[r])
              && forall i :: 0 <= i < |p.items| ==> f.data[i][r].Some?
    {
      ToFrameRow(p, true, r);
      CompleteMaskAt(p, RowSource(p, true, r));
    }
    forall j, c | 0 <= j < n && 0 <= c < k && Complete(p, j, c)
      ensures exists r :: 0 <= r < f.Rows() && f.majorCodes[r] == j && f.minorCodes[r] == c
    {
      ToFrameKeepsComplete(p, j, c);
    }
  }

  /** A pair observed in every item is a row of `to_frame(True)`. */
  lemma ToFrameKeepsComplete<V>(p: Panel<V>, j: nat, c: nat)
    requires p.Shaped() && j < |p.major| && c < |p.minor| && Complete(p, j, c)
    ensures var f := ToFrame(p, true);
      exists r :: 0 <= r < f.Rows() && f.majorCodes[r] == j && f.minorCodes[r] == c
  {
    var n, k := |p.major|, |p.minor|;
    var mask := CompleteMask(p);
    var t := j * k + c;
    DivModOf(j, c, k);
    PairInRange(j, c, n, k);
    CompleteMaskAt(p, t);
    assert mask[t];
    KeptComplete(mask, t);
    var r :| 0 <= r < |Kept(mask)| && Kept(mask)[r] == t;
    var f := ToFrame(p, true);
    CompressKept(MajorCodes(n, k), mask);
    assert r < f.Rows();
    assert RowSource(p, true, r) == t;
    ToFrameRow(p, true, r);
    assert f.majorCodes[r] == j && f.minorCodes[r] == c;
  }
}

=== FILE: panel.dfy ===
/** The Panel container: three label axes over a dense grid of cells
    addressed [item][major][minor], where `None` is a missing (NaN) cell,
    and the 2-D Frame the Panel slices into. */
module Panels {
  import opened Results
  import opened Seqs
  import opened Labels
  import opened Axes

  type Grid2<V> = seq<seq<Option<V>>>
  type Grid3<V> = seq<seq<seq<Option<V>>>>

  /** `g` has `n` rows of `k` cells each. */
  predicate Shape2<V>(g: Grid2<V>, n: nat, k: nat) {
    |g| == n && forall j :: 0 <= j < n ==> |g[j]| == k
  }

  /** `g` has extents (m, n, k). */
  predicate Shape3<V>(g: Grid3<V>, m: nat, n: nat, k: nat) {
    |g| == m && forall i :: 0 <= i < m ==> Shape2(g[i], n, k)
  }

  datatype Panel<V> = Panel(items: seq<Label>, major: seq<Label>, minor: seq<Label>, values: Grid3<V>) {

    /** The grid extents are the three axis lengths: `shape` is always the
        triple of axis lengths. */
    predicate Shaped() {
      Shape3(values, |items|, |major|, |minor|)
    }

    /** Shaped, and every axis is a uniquely valued index, as label lookup
        and reindexing need. */
    predicate Valid() {
      Shaped() && Distinct(items) && Distinct(major) && Distinct(minor)
    }

    /** The labels of axis `a`. */
    function AxisLabels(a: Axis): seq<Label> {
      match a
      case Items => items
      case Major => major
      case Minor => minor
    }

    /** The length of axis `a`. */
    function Extent(a: Axis): nat {
      |AxisLabels(a)|
    }

    /** The cell at the position triple (i, j, k). */
    function Cell(i: nat, j: nat, k: nat): Option<V>
      requires Shaped() && i < |items| && j < |major| && k < |minor|
    {
      values[i][j][k]
    }
  }

  /** `shape`: the extents of a shaped panel, in storage order. */
  function Shape<V>(p: Panel<V>): (r: seq<nat>)
    requires p.Shaped()
    ensures |r| == 3
    ensures forall a :: r[Number(a)] == p.Extent(a)
    ensures |p.values| == r[0]
    ensures forall i :: 0 <= i < r[0] ==> |p.values[i]| == r[1]
    ensures forall i, j :: 0 <= i < r[0] && 0 <= j < r[1] ==> |p.values[i][j]| == r[2]
  {
    [|p.items|, |p.major|, |p.minor|]
  }

  /** A 2-D table: an index, columns, and a grid of cells [row][column]. */
  datatype Frame<V> = Frame(index: seq<Label>, columns: seq<Label>, values: Grid2<V>) {
    predicate Shaped() {
      Shape2(values, |index|, |columns|)
    }

    predicate Valid() {
      Shaped() && Distinct(index) && Distinct(columns)
    }
  }

  /** An `n` by `k` plane of missing cells: what `np.empty(...).fill(nan)`
      produces. */
  function MissingPlane<V>(n: nat, k: nat): (g: Grid2<V>)
    ensures Shape2(g, n, k)
    ensures forall j, c :: 0 <= j < n && 0 <= c < k ==> g[j][c].None?
  {
    seq(n, _ => seq(k, _ => None))
  }

  /** `DataFrame.reindex(index=…, columns=…)`: gather the cells of `f` at the
      requested labels, missing where a label is absent. */
  function FrameReindex<V>(f: Frame<V>, index: seq<Label>, columns: seq<Label>): (r: Frame<V>)
    requires f.Shaped()
    ensures r.Shaped() && r.index == index && r.columns == columns
    ensures forall j, c :: 0 <= j < |index| && 0 <= c < |columns| ==>
      r.values[j][c] ==
        (if index[j] in f.index && columns[c] in f.columns
         then f.values[IndexOf(f.index, index[j]).value][IndexOf(f.columns, columns[c]).value]
         else None)
  {
    Frame(index, columns,
      seq(|index|, j requires 0 <= j < |index| =>
        seq(|columns|, c requires 0 <= c < |columns| =>
          match (IndexOf(f.index, index[j]), IndexOf(f.columns, columns[c]))
          case (Some(a), Some(b)) => f.values[a][b]
          case _ => None)))
  }

  /** Reindexing a frame onto its own labels changes nothing. */
  lemma FrameReindexIdentity<V>(f: Frame<V>)
    requires f.Valid()
    ensures FrameReindex(f, f.index, f.columns) == f
  {
    var r := FrameReindex(f, f.index, f.columns);
    forall j | 0 <= j < |f.index|
      ensures r.values[j] == f.values[j]
    {
      IndexOfDistinct(f.index, j);
      forall c | 0 <= c < |f.columns|
        ensures r.values[j][c] == f.values[j][c]
      {
        IndexOfDistinct(f.columns, c);
      }
    }
  }

  /** `panel[key]` for a flat item axis: the item's plane as a frame indexed
      by the major axis with the minor axis as columns, or KeyError. */
  function GetItem<V>(p: Panel<V>, key: Label): (r: Result<Frame<V>>)
    requires p.Shaped()
    ensures r.Err? <==> key !in p.items
    ensures r.Err? ==> r.error.KeyError?
    ensures r.Ok? ==> r.value.Shaped() && r.value.index == p.major && r.value.columns == p.minor
    ensures r.Ok? ==> exists i :: 0 <= i < |p.items| && p.items[i] == key && r.value.values == p.values[i]
  {
    match IndexOf(p.items, key)
    case None => Err(KeyError("item not found"))
    case Some(i) => Ok(Frame(p.major, p.minor, p.values[i]))
  }
}

=== FILE: reduce.dfy ===
/** `Panel._reduce`: a reduction such as `sum` or `mean` applied along one
    axis, handed back as a frame labelled by the plane that axis leaves
    behind. */
module Reductions {
  import opened Results
  import opened Labels
  import opened Axes
  import opened Panels
  import opened Cleaning

  /** The cells along axis `a` through the position (i, j, k), in axis
      order; the coordinate of (i, j, k) along `a` itself plays no part. */
  function Line<V>(p: Panel<V>, a: Axis, i: nat, j: nat, k: nat): (r: seq<Option<V>>)
    requires p.Shaped() && i < |p.items| && j < |p.major| && k < |p.minor|
    ensures |r| == p.Extent(a)
  {
    match a
    case Items => seq(|p.items|, t requires 0 <= t < |p.items| => p.values[t][j][k])
    case Major => seq(|p.major|, t requires 0 <= t < |p.major| => p.values[i][t][k])
    case Minor => seq(|p.minor|, t requires 0 <= t < |p.minor| => p.values[i][j][t])
  }

  /** The cells across all cross-sections of `a` at plane position (u, w),
      the plane laid out along `Others(a)`. */
  function Fiber<V>(p: Panel<V>, a: Axis, u: nat, w: nat): (r: seq<Option<V>>)
    requires p.Shaped() && u < p.Extent(Others(a).0) && w < p.Extent(Others(a).1)
    ensures |r| == p.Extent(a)
  {
    seq(p.Extent(a), t requires 0 <= t < p.Extent(a) => Section(p, a, t)[u][w])
  }

  /** `op(values, axis=a)`: the reduced plane, laid out along the two
      remaining axes in storage order. */
  function Reduced<V>(p: Panel<V>, a: Axis, op: seq<Option<V>> -> Option<V>): (g: Grid2<V>)
    requires p.Shaped()
    ensures Shape2(g, p.Extent(Others(a).0), p.Extent(Others(a).1))
    ensures forall u, w :: 0 <= u < p.Extent(Others(a).0) && 0 <= w < p.Extent(Others(a).1) ==>
      g[u][w] == op(Fiber(p, a, u, w))
  {
    var n, k := p.Extent(Others(a).0), p.Extent(Others(a).1);
    seq(n, u requires 0 <= u < n => seq(k, w requires 0 <= w < k => op(Fiber(p, a, u, w))))
  }

  /** `result.T` of an `n` by `k` grid. */
  function Transposed<V>(g: Grid2<V>, n: nat, k: nat): (r: Grid2<V>)
    requires Shape2(g, n, k)
    ensures Shape2(r, k, n)
    ensures forall y, x :: 0 <= y < k && 0 <= x < n ==> r[y][x] == g[x][y]
  {
    seq(k, y requires 0 <= y < k => seq(n, x requires 0 <= x < n => g[x][y]))
  }

  /** The reduced plane as `_reduce` hands it on: transposed unless the
      reduction ran along the items. */
  function Oriented<V>(p: Panel<V>, a: Axis, op: seq<Option<V>> -> Option<V>): (g: Grid2<V>)
    requires p.Shaped()
    ensures Shape2(g, p.Extent(PlaneAxes(a).0), p.Extent(PlaneAxes(a).1))
  {
    var raw := Reduced(p, a, op);
    if a != Items then Transposed(raw, p.Extent(Others(a).0), p.Extent(Others(a).1)) else raw
  }

  /** The fiber through a position, read off the cross-sections, is the
      line of cells through it. */
  lemma FiberIsLine<V>(p: Panel<V>, a: Axis, i: nat, j: nat, k: nat)
    requires p.Shaped() && i < |p.items| && j < |p.major| && k < |p.minor|
    ensures Pick(Others(a).0, i, j, k) < p.Extent(Others(a).0)
    ensures Pick(Others(a).1, i, j, k) < p.Extent(Others(a).1)
    ensures Fiber(p, a, Pick(Others(a).0, i, j, k), Pick(Others(a).1, i, j, k)) == Line(p, a, i, j, k)
  {
    var u, w := Pick(Others(a).0, i, j, k), Pick(Others(a).1, i, j, k);
    var f, l := Fiber(p, a, u, w), Line(p, a, i, j, k);
    forall t | 0 <= t < p.Extent(a) ensures f[t] == l[t] {
      assert f[t] == Section(p, a, t)[u][w];
    }
  }

  /** Each cell of the oriented plane is the reduction of the line of
      cells through it: the transpose puts the index on the first plane
      axis and the columns on the second. */
  lemma OrientedCell<V>(p: Panel<V>, a: Axis, op: seq<Option<V>> -> Option<V>, i: nat, j: nat, k: nat)
    requires p.Shaped() && i < |p.items| && j < |p.major| && k < |p.minor|
    ensures Pick(PlaneAxes(a).0, i, j, k) < p.Extent(PlaneAxes(a).0)
    ensures Pick(PlaneAxes(a).1, i, j, k) < p.Extent(PlaneAxes(a).1)
    ensures Oriented(p, a, op)[Pick(PlaneAxes(a).0, i, j, k)][Pick(PlaneAxes(a).1, i, j, k)] == op(Line(p, a, i, j, k))
  {
    FiberIsLine(p, a, i, j, k);
    var raw := Reduced(p, a, op);
    var u, w := Pick(Others(a).0, i, j, k), Pick(Others(a).1, i, j, k);
    assert raw[u][w] == op(Line(p, a, i, j, k));
  }

  /** `_reduce(op, axis)`: the frame whose index and columns are the plane
      axes of `axis` and whose every cell is `op` applied to the line of
      cells along `axis` through it. An axis that names none raises
      ValueError. */
  function Reduce<V>(p: Panel<V>, key: AxisKey, op: seq<Option<V>> -> Option<V>): (r: Result<Frame<V>>)
    requires p.Shaped()
    ensures r.Err? <==> Resolve(key).Err?
    ensures r.Err? ==> r.error.ValueError?
    ensures r.Ok? ==> var a := Resolve(key).value;
      && r.value.Shaped()
      && r.value.index == p.AxisLabels(PlaneAxes(a).0)
      && r.value.columns == p.AxisLabels(PlaneAxes(a).1)
    ensures r.Ok? ==> var a := Resolve(key).value;
      forall i, j, k :: 0 <= i < |p.items| && 0 <= j < |p.major| && 0 <= k < |p.minor| ==>
        && Pick(PlaneAxes(a).0, i, j, k) < |r.value.index|
        && Pick(PlaneAxes(a).1, i, j, k) < |r.value.columns|
        && r.value.values[Pick(PlaneAxes(a).0, i, j, k)][Pick(PlaneAxes(a).1, i, j, k)] == op(Line(p, a, i, j, k))
  {
    match Resolve(key)
    case Err(e) => Err(e)
    case Ok(a) =>
      var g := Oriented(p, a, op);
      assert forall i, j, k :: 0 <= i < |p.items| && 0 <= j < |p.major| && 0 <= k < |p.minor| ==>
        && Pick(PlaneAxes(a).0, i, j, k) < p.Extent(PlaneAxes(a).0)
        && Pick(PlaneAxes(a).1, i, j, k) < p.Extent(PlaneAxes(a).1)
        && g[Pick(PlaneAxes(a).0, i, j, k)][Pick(PlaneAxes(a).1, i, j, k)] == op(Line(p, a, i, j, k)) by {
        forall i, j, k | 0 <= i < |p.items| && 0 <= j < |p.major| && 0 <= k < |p.minor|
          ensures && Pick(PlaneAxes(a).0, i, j, k) < p.Extent(PlaneAxes(a).0)
                  && Pick(PlaneAxes(a).1, i, j, k) < p.Extent(PlaneAxes(a).1)
                  && g[Pick(PlaneAxes(a).0, i, j, k)][Pick(PlaneAxes(a).1, i, j, k)] == op(Line(p, a, i, j, k))
        {
          OrientedCell(p, a, op, i, j, k);
        }
      }
      Ok(Frame(p.AxisLabels(PlaneAxes(a).0), p.AxisLabels(PlaneAxes(a).1), g))
  }

  /** Reducing a one-item panel over the items with a reduction that
      returns the only value of a one-cell line gives back that item's
      frame, as `panel[item]` does. */
  lemma ReduceSingleItem<V>(p: Panel<V>, op: seq<Option<V>> -> Option<V>)
    requires p.Shaped() && |p.items| == 1
    requires forall s: seq<Option<V>> :: |s| == 1 ==> op(s) == s[0]
    ensures Reduce(p, Named("items"), op).Ok?
    ensures GetItem(p, p.items[0]).Ok?
    ensures Reduce(p, Named("items"), op).value == GetItem(p, p.items[0]).value
  {
    var r := Reduce(p, Named("items"), op).value;
    var f := GetItem(p, p.items[0]).value;
    assert f.values == p.values[0];
    assert |r.values| == |f.values|;
    forall j | 0 <= j < |p.major| ensures r.values[j] == f.values[j] {
      forall k | 0 <= k < |p.minor| ensures r.values[j][k] == f.values[j][k] {
        assert |Line(p, Items, 0, j, k)| == 1;
        assert Line(p, Items, 0, j, k)[0] == p.values[0][j][k];
      }
    }
  }
}

=== FILE: reindex.dfy ===
/** Conforming a panel to new labels: the per-axis reindex, the fused
    three-axis `_reindex_multi`, the `reindex` entry point with its error
    rule, and the choice of join axes. */
module Reindexing {
  import opened Results
  import opened Seqs
  import opened Labels
  import opened Axes
  import opened Panels

  // ---------------------------------------------------------------------
  // Indexers

  /** Every entry is an old position below `n`, or -1 for "absent". */
  predicate IndexerFor(idx: seq<int>, n: nat) {
    forall t :: 0 <= t < |idx| ==> -1 <= idx[t] < n
  }

  /** `Index.reindex(target)`: for every target label, its first position on
      the old axis, or -1 when the old axis lacks it. */
  function Indexer(axis: seq<Label>, target: seq<Label>): (r: seq<int>)
    ensures |r| == |target| && IndexerFor(r, |axis|)
    ensures forall t :: 0 <= t < |target| ==> (r[t] == -1 <==> target[t] !in axis)
    ensures forall t :: 0 <= t < |target| && r[t] >= 0 ==> r[t] == IndexOf(axis, target[t]).value
  {
    seq(|target|, t requires 0 <= t < |target| =>
      match IndexOf(axis, target[t])
      case None => -1
      case Some(i) => i)
  }

  /** `com.take_2d_multi(plane, rows, cols)`: gather rows and columns of a
      plane, a -1 in either indexer giving a missing cell. */
  function Take2DMulti<V>(plane: Grid2<V>, n: nat, k: nat, rows: seq<int>, cols: seq<int>): (g: Grid2<V>)
    requires Shape2(plane, n, k) && IndexerFor(rows, n) && IndexerFor(cols, k)
    ensures Shape2(g, |rows|, |cols|)
    ensures forall a, b :: 0 <= a < |rows| && 0 <= b < |cols| ==>
      g[a][b] == if rows[a] < 0 || cols[b] < 0 then None else plane[rows[a]][cols[b]]
  {
    seq(|rows|, a requires 0 <= a < |rows| =>
      seq(|cols|, b requires 0 <= b < |cols| =>
        if rows[a] < 0 || cols[b] < 0 then None else plane[rows[a]][cols[b]]))
  }

  /** The cell of `p` at the labels (x, y, z): the cell at the first
      position of each label, or missing when any of them is absent. */
  function LabelCell<V>(p: Panel<V>, x: Label, y: Label, z: Label): Option<V>
    requires p.Shaped()
  {
    if x in p.items && y in p.major && z in p.minor
    then p.values[IndexOf(p.items, x).value][IndexOf(p.major, y).value][IndexOf(p.minor, z).value]
    else None
  }

  /** On a valid panel, looking a cell up by its own labels finds it. */
  lemma LabelCellAt<V>(p: Panel<V>, i: nat, j: nat, k: nat)
    requires p.Valid() && i < |p.items| && j < |p.major| && k < |p.minor|
    ensures LabelCell(p, p.items[i], p.major[j], p.minor[k]) == p.values[i][j][k]
  {
    IndexOfDistinct(p.items, i);
    IndexOfDistinct(p.major, j);
    IndexOfDistinct(p.minor, k);
  }

  // ---------------------------------------------------------------------
  // Reindexing one axis

  /** Reindex the item axis: each requested item takes the old plane of
      that item, or a missing plane when the item is new. */
  function ReindexItems<V>(p: Panel<V>, labels: seq<Label>): (r: Panel<V>)
    requires p.Shaped()
    ensures r.Shaped() && r.items == labels && r.major == p.major && r.minor == p.minor
    ensures forall i, j, k :: 0 <= i < |labels| && 0 <= j < |p.major| && 0 <= k < |p.minor| ==>
      r.values[i][j][k] == if labels[i] in p.items then p.values[IndexOf(p.items, labels[i]).value][j][k] else None
  {
    var idx := Indexer(p.items, labels);
    Panel(labels, p.major, p.minor,
      seq(|labels|, i requires 0 <= i < |labels| =>
        if idx[i] < 0 then MissingPlane(|p.major|, |p.minor|) else p.values[idx[i]]))
  }

  /** Reindex the major axis: each requested label takes the old row of
      that label in every item, or a missing row when the label is new. */
  function ReindexMajor<V>(p: Panel<V>, labels: seq<Label>): (r: Panel<V>)
    requires p.Shaped()
    ensures r.Shaped() && r.items == p.items && r.major == labels && r.minor == p.minor
    ensures forall i, j, k :: 0 <= i < |p.items| && 0 <= j < |labels| && 0 <= k < |p.minor| ==>
      r.values[i][j][k] == if labels[j] in p.major then p.values[i][IndexOf(p.major, labels[j]).value][k] else None
  {
    var idx := Indexer(p.major, labels);
    Panel(p.items, labels, p.minor,
      seq(|p.items|, i requires 0 <= i < |p.items| =>
        seq(|labels|, j requires 0 <= j < |labels| =>
          if idx[j] < 0 then seq(|p.minor|, _ => None) else p.values[i][idx[j]])))
  }

  /** Reindex the minor axis: each requested label takes the old column of
      that label in every item, or missing cells when the label is new. */
  function ReindexMinor<V>(p: Panel<V>, labels: seq<Label>): (r: Panel<V>)
    requires p.Shaped()
    ensures r.Shaped() && r.items == p.items && r.major == p.major && r.minor == labels
    ensures forall i, j, k :: 0 <= i < |p.items| && 0 <= j < |p.major| && 0 <= k < |labels| ==>
      r.values[i][j][k] == if labels[k] in p.minor then p.values[i][j][IndexOf(p.minor, labels[k]).value] else None
  {
    var idx := Indexer(p.minor, labels);
    Panel(p.items, p.major, labels,
      seq(|p.items|, i requires 0 <= i < |p.items| =>
        seq(|p.major|, j requires 0 <= j < |p.major| =>
          seq(|labels|, k requires 0 <= k < |labels| =>
            if idx[k] < 0 then None else p.values[i][j][idx[k]]))))
  }

  /** `_reindex_axis(labels, axis)` without a fill method: the axis becomes
      `labels`, each position taking the slice at the label's old position
      or a missing slice when the label is new; the other axes stay. */
  function ReindexAxis<V>(p: Panel<V>, labels: seq<Label>, a: Axis): (r: Panel<V>)
    requires p.Shaped()
    ensures r.Shaped()
    ensures r.AxisLabels(a) == labels
    ensures forall b :: b != a ==> r.AxisLabels(b) == p.AxisLabels(b)
  {
    match a
    case Items => ReindexItems(p, labels)
    case Major => ReindexMajor(p, labels)
    case Minor => ReindexMinor(p, labels)
  }

  /** Reindexing an axis without repeats onto its own labels changes
      nothing. */
  lemma ReindexAxisIdentity<V>(p: Panel<V>, a: Axis)
    requires p.Shaped() && Distinct(p.AxisLabels(a))
    ensures ReindexAxis(p, p.AxisLabels(a), a) == p
  {
    var r := ReindexAxis(p, p.AxisLabels(a), a);
    forall i, j, k | 0 <= i < |p.items| && 0 <= j < |p.major| && 0 <= k < |p.minor|
      ensures r.values[i][j][k] == p.values[i][j][k]
    {
      match a
      case Items =>
        IndexOfDistinct(p.items, i);
        assert r == ReindexItems(p, p.items);
      case Major =>
        IndexOfDistinct(p.major, j);
        assert r == ReindexMajor(p, p.major);
      case Minor =>
        IndexOfDistinct(p.minor, k);
        assert r == ReindexMinor(p, p.minor);
    }
    GridsEqual(r, p);
  }

  /** Two shaped panels with the same axes and the same cells are equal. */
  lemma GridsEqual<V>(r: Panel<V>, p: Panel<V>)
    requires r.Shaped() && p.Shaped()
    requires r.items == p.items && r.major == p.major && r.minor == p.minor
    requires forall i, j, k :: 0 <= i < |p.items| && 0 <= j < |p.major| && 0 <= k < |p.minor| ==>
      r.values[i][j][k] == p.values[i][j][k]
    ensures r == p
  {
    forall i | 0 <= i < |p.items| ensures r.values[i] == p.values[i] {
      forall j | 0 <= j < |p.major| ensures r.values[i][j] == p.values[i][j] {
      }
    }
  }

  // ---------------------------------------------------------------------
  // The fused three-axis reindex

  /** `_reindex_multi(items, major, minor)`, with an absent item giving a
      missing plane: every cell is the old cell at the requested labels, or
      missing when any of the three labels is new. */
  function ReindexMulti<V>(p: Panel<V>, items: seq<Label>, major: seq<Label>, minor: seq<Label>): (r: Panel<V>)
    requires p.Shaped()
    ensures r.Shaped() && r.items == items && r.major == major && r.minor == minor
    ensures forall i, j, k :: 0 <= i < |items| && 0 <= j < |major| && 0 <= k < |minor| ==>
      r.values[i][j][k] == LabelCell(p, items[i], major[j], minor[k])
  {
    var idx0, idx1, idx2 := Indexer(p.items, items), Indexer(p.major, major), Indexer(p.minor, minor);
    Panel(items, major, minor,
      seq(|items|, i requires 0 <= i < |items| =>
        if idx0[i] < 0 then MissingPlane(|major|, |minor|)
        else Take2DMulti(p.values[idx0[i]], |p.major|, |p.minor|, idx1, idx2)))
  }

  /** Python's `s[ind]` for one integer position: negative positions count
      from the end, and positions outside the sequence raise IndexError. */
  function PyIndex<T>(s: seq<T>, ind: int): (r: Result<T>)
    ensures r.Ok? <==> -|s| <= ind < |s|
    ensures r.Ok? ==> r.value == s[if ind >= 0 then ind else |s| + ind]
    ensures r.Err? ==> r.error.IndexError?
  {
    if 0 <= ind < |s| then Ok(s[ind])
    else if -|s| <= ind < 0 then Ok(s[|s| + ind])
    else Err(IndexError("index out of bounds"))
  }

  /** The item planes `values[ind]` for every entry of the item indexer,
      exactly as indexed: -1 is a position counted from the end. */
  function GatherPlanes<V>(values: Grid3<V>, idx: seq<int>): (r: Result<seq<Grid2<V>>>)
    ensures r.Ok? <==> forall t :: 0 <= t < |idx| ==> -|values| <= idx[t] < |values|
    ensures r.Ok? ==> |r.value| == |idx|
    ensures r.Ok? ==> forall t :: 0 <= t < |idx| ==> r.value[t] == PyIndex(values, idx[t]).value
    ensures r.Err? ==> r.error.IndexError?
  {
    if |idx| == 0 then Ok([])
    else
      var first :- PyIndex(values, idx[0]);
      var rest :- GatherPlanes(values, idx[1..]);
      assert forall t :: 0 < t < |idx| ==> idx[t] == idx[1..][t - 1];
      Ok([first] + rest)
  }

  /** `_reindex_multi` as written: the item plane is `values[ind]` with no
      check for the -1 an absent item produces, so an absent item takes a
      copy of the last item's plane, and raises IndexError when the panel
      has no items at all. */
  function ReindexMultiAsWritten<V>(p: Panel<V>, items: seq<Label>, major: seq<Label>, minor: seq<Label>): (r: Result<Panel<V>>)
    requires p.Shaped()
    ensures r.Err? <==> |p.items| == 0 && |items| > 0
    ensures r.Err? ==> r.error.IndexError?
    ensures r.Ok? ==> r.value.Shaped() && r.value.items == items && r.value.major == major && r.value.minor == minor
    ensures r.Ok? ==> forall i, j, k :: 0 <= i < |items| && 0 <= j < |major| && 0 <= k < |minor| && items[i] !in p.items ==>
      r.value.values[i][j][k] ==
        if major[j] in p.major && minor[k] in p.minor
        then p.values[|p.items| - 1][IndexOf(p.major, major[j]).value][IndexOf(p.minor, minor[k]).value]
        else None
    ensures r.Ok? ==> forall i, j, k :: 0 <= i < |items| && 0 <= j < |major| && 0 <= k < |minor| && items[i] in p.items ==>
      r.value.values[i][j][k] == ReindexMulti(p, items, major, minor).values[i][j][k]
  {
    var idx0, idx1, idx2 := Indexer(p.items, items), Indexer(p.major, major), Indexer(p.minor, minor);
    var planes :- GatherPlanes(p.values, idx0);
    assert forall i :: 0 <= i < |items| ==> |planes[i]| == |p.major| && forall j :: 0 <= j < |p.major| ==> |planes[i][j]| == |p.minor|;
    var r := Panel(items, major, minor,
      seq(|items|, i requires 0 <= i < |items| => Take2DMulti(planes[i], |p.major|, |p.minor|, idx1, idx2)));
    assert |p.items| > 0 ==> (forall i :: 0 <= i < |items| && items[i] !in p.items ==> planes[i] == p.values[|p.items| - 1]) by {
      if |p.items| > 0 {
        assert p.items[|p.items| - 1] in p.items;
      }
    }
    Ok(r)
  }

  /** Concretely: reindexing the one-item panel `a` onto items `a, b` gives
      item `b` a copy of `a`'s plane as written, where the corrected
      reindex gives it a missing plane. */
  lemma ReindexMultiCopiesLastItem<V>(v: V)
    ensures var p := Panel([StrLabel("a")], [IntLabel(0)], [IntLabel(0)], [[[Some(v)]]]);
      var items := [StrLabel("a"), StrLabel("b")];
      && ReindexMultiAsWritten(p, items, p.major, p.minor).Ok?
      && ReindexMultiAsWritten(p, items, p.major, p.minor).value.values[1][0][0] == Some(v)
      && ReindexMulti(p, items, p.major, p.minor).values[1][0][0] == None
  {
    var p := Panel([StrLabel("a")], [IntLabel(0)], [IntLabel(0)], [[[Some(v)]]]);
    var items := [StrLabel("a"), StrLabel("b")];
    assert p.Shaped();
    assert items[1] !in p.items;
    assert IndexOf(p.major, IntLabel(0)) == Some(0);
    assert IndexOf(p.minor, IntLabel(0)) == Some(0);
    assert IndexOf(p.items, StrLabel("a")) == Some(0);
  }

  /** Concretely: reindexing a panel without items onto any item raises
      IndexError as written. */
  lemma ReindexMultiEmptyRaises<V>()
    ensures var p: Panel<V> := Panel([], [], [], []);
      ReindexMultiAsWritten(p, [StrLabel("a")], [], []) == Err(IndexError("index out of bounds"))
  {
  }

  /** The fused reindex agrees with the sequential path `reindex` takes
      otherwise: major axis, then minor axis, then items. */
  lemma ReindexMultiSequential<V>(p: Panel<V>, items: seq<Label>, major: seq<Label>, minor: seq<Label>)
    requires p.Shaped()
    ensures ReindexMulti(p, items, major, minor)
         == ReindexItems(ReindexMinor(ReindexMajor(p, major), minor), items)
  {
    var q1 := ReindexMajor(p, major);
    var q2 := ReindexMinor(q1, minor);
    var q3 := ReindexItems(q2, items);
    var r := ReindexMulti(p, items, major, minor);
    forall i, j, k | 0 <= i < |items| && 0 <= j < |major| && 0 <= k < |minor|
      ensures r.values[i][j][k] == q3.values[i][j][k]
    {
      if items[i] in p.items {
        var a := IndexOf(p.items, items[i]).value;
        assert q3.values[i][j][k] == q2.values[a][j][k];
      }
    }
    GridsEqual(r, q3);
  }

  /** Reindexing a valid panel onto its own labels changes nothing. */
  lemma ReindexMultiIdentity<V>(p: Panel<V>)
    requires p.Valid()
    ensures ReindexMulti(p, p.items, p.major, p.minor) == p
  {
    var r := ReindexMulti(p, p.items, p.major, p.minor);
    forall i, j, k | 0 <= i < |p.items| && 0 <= j < |p.major| && 0 <= k < |p.minor|
      ensures r.values[i][j][k] == p.values[i][j][k]
    {
      LabelCellAt(p, i, j, k);
    }
    GridsEqual(r, p);
  }

  /** One cell survives widening and restoring. */
  lemma WidenRestoreCell<V>(p: Panel<V>, items: seq<Label>, major: seq<Label>, minor: seq<Label>, i: nat, j: nat, k: nat)
    requires p.Valid() && i < |p.items| && j < |p.major| && k < |p.minor|
    requires p.items[i] in items && p.major[j] in major && p.minor[k] in minor
    ensures ReindexMulti(ReindexMulti(p, items, major, minor), p.items, p.major, p.minor).values[i][j][k] == p.values[i][j][k]
  {
    var q := ReindexMulti(p, items, major, minor);
    var x, y, z := p.items[i], p.major[j], p.minor[k];
    var a, b, c := IndexOf(items, x).value, IndexOf(major, y).value, IndexOf(minor, z).value;
    assert q.values[a][b][c] == LabelCell(p, x, y, z);
    LabelCellAt(p, i, j, k);
  }

  /** Reindexing onto labels that hold every old label and then back onto
      the old labels restores a valid panel: widening loses no cell. */
  lemma ReindexMultiWidenRestore<V>(p: Panel<V>, items: seq<Label>, major: seq<Label>, minor: seq<Label>)
    requires p.Valid()
    requires forall x :: x in p.items ==> x in items
    requires forall y :: y in p.major ==> y in major
    requires forall z :: z in p.minor ==> z in minor
    ensures ReindexMulti(ReindexMulti(p, items, major, minor), p.items, p.major, p.minor) == p
  {
    var r := ReindexMulti(ReindexMulti(p, items, major, minor), p.items, p.major, p.minor);
    forall i, j, k | 0 <= i < |p.items| && 0 <= j < |p.major| && 0 <= k < |p.minor|
      ensures r.values[i][j][k] == p.values[i][j][k]
    {
      WidenRestoreCell(p, items, major, minor, i, j, k);
    }
    GridsEqual(r, p);
  }

  // ---------------------------------------------------------------------
  // reindex

  /** Reindex along `a` when labels are given; leave the panel as it is
      otherwise. */
  function ReindexStep<V>(p: Panel<V>, labels: Option<seq<Label>>, a: Axis): (r: Panel<V>)
    requires p.Shaped()
    ensures r.Shaped()
    ensures labels.None? ==> r == p
    ensures labels.Some? ==> r == ReindexAxis(p, labels.value, a)
  {
    if labels.Some? then ReindexAxis(p, labels.value, a) else p
  }

  /** The requested labels for an axis, or the panel's own. */
  function Requested(given: Option<seq<Label>>, own: seq<Label>): seq<Label> {
    if given.Some? then given.value else own
  }

  /** `reindex(items=…, major=…, minor=…, copy=…)` without a fill method:
      the corrected fused reindex when all three axes are given, the per-axis steps
      (major, minor, items) otherwise; asking for no axis at all with
      `copy` set raises ValueError. */
  function Reindex<V>(p: Panel<V>, items: Option<seq<Label>>, major: Option<seq<Label>>, minor: Option<seq<Label>>, copy: bool): (r: Result<Panel<V>>)
    requires p.Shaped()
    ensures r.Err? <==> items.None? && major.None? && minor.None? && copy
    ensures r.Err? ==> r.error == ValueError("Must specify at least one axis")
    ensures r.Ok? ==> r.value.Shaped()
    ensures r.Ok? ==> (
      && r.value.items == Requested(items, p.items)
      && r.value.major == Requested(major, p.major)
      && r.value.minor == Requested(minor, p.minor))
  {
    if items.Some? && major.Some? && minor.Some? then
      Ok(ReindexMulti(p, items.value, major.value, minor.value))
    else
      var result := ReindexStep(ReindexStep(ReindexStep(p, major, Major), minor, Minor), items, Items);
      if items.None? && major.None? && minor.None? && copy then Err(ValueError("Must specify at least one axis"))
      else Ok(result)
  }

  /** On a valid panel every path through `reindex` is the fused gather at
      the requested labels, so each cell is the old cell at its labels or
      missing. */
  lemma ReindexIsGather<V>(p: Panel<V>, items: Option<seq<Label>>, major: Option<seq<Label>>, minor: Option<seq<Label>>, copy: bool)
    requires p.Valid()
    requires Reindex(p, items, major, minor, copy).Ok?
    ensures Reindex(p, items, major, minor, copy).value
         == ReindexMulti(p, Requested(items, p.items), Requested(major, p.major), Requested(minor, p.minor))
  {
    var I, J, K := Requested(items, p.items), Requested(major, p.major), Requested(minor, p.minor);
    if !(items.Some? && major.Some? && minor.Some?) {
      var q1 := ReindexStep(p, major, Major);
      if major.None? { ReindexAxisIdentity(p, Major); }
      assert q1 == ReindexAxis(p, J, Major);
      var q2 := ReindexStep(q1, minor, Minor);
      if minor.None? { ReindexAxisIdentity(q1, Minor); }
      assert q2 == ReindexAxis(q1, K, Minor);
      var q3 := ReindexStep(q2, items, Items);
      if items.None? { ReindexAxisIdentity(q2, Items); }
      assert q3 == ReindexAxis(q2, I, Items);
      assert q3 == ReindexItems(ReindexMinor(ReindexMajor(p, J), K), I);
      ReindexMultiSequential(p, I, J, K);
    }
  }

  // ---------------------------------------------------------------------
  // Join axes

  /** `_get_join_index(other, how)`: the major and minor axes a join
      produces; an unknown `how` leaves them unbound. */
  function JoinIndex<V>(p: Panel<V>, q: Panel<V>, how: string): (r: Result<(seq<Label>, seq<Label>)>)
    ensures r.Err? <==> how !in {"left", "right", "inner", "outer"}
    ensures r.Err? ==> r.error.UnboundLocalError?
    ensures how == "left" ==> r == Ok((p.major, p.minor))
    ensures how == "right" ==> r == Ok((q.major, q.minor))
    ensures how == "inner" ==> (
      && r.Ok?
      && (forall y :: y in r.value.0 <==> y in p.major && y in q.major)
      && (forall z :: z in r.value.1 <==> z in p.minor && z in q.minor))
    ensures how == "outer" ==> (
      && r.Ok?
      && (forall y :: y in r.value.0 <==> y in p.major || y in q.major)
      && (forall z :: z in r.value.1 <==> z in p.minor || z in q.minor))
  {
    if how == "left" then Ok((p.major, p.minor))
    else if how == "right" then Ok((q.major, q.minor))
    else if how == "inner" then Ok((Intersection(p.major, q.major), Intersection(p.minor, q.minor)))
    else if how == "outer" then Ok((Union(p.major, q.major), Union(p.minor, q.minor)))
    else Err(UnboundLocalError("local variable 'join_major' referenced before assignment"))
  }

  /** The four joins nest: every inner label is on both sides, and every
      label of either side is in the outer join. */
  lemma JoinIndexNesting<V>(p: Panel<V>, q: Panel<V>)
    ensures var inner, outer := JoinIndex(p, q, "inner").value, JoinIndex(p, q, "outer").value;
      && (forall y :: y in inner.0 ==> y in p.major && y in q.major)
      && (forall y :: y in p.major || y in q.major ==> y in outer.0)
      && (forall z :: z in inner.1 ==> z in p.minor && z in q.minor)
      && (forall z :: z in p.minor || z in q.minor ==> z in outer.1)
  {
  }
}

=== FILE: reshape.dfy ===
/** Shape-changing operations that only move cells: `shift`, which drops
    lagged-out positions along the major or minor axis, and `swapaxes` /
    `transpose`, which permute the three axes together with the cell
    coordinates. */
module Reshape {
  import opened Results
  import opened Labels
  import opened Axes
  import opened Panels

  // ---------------------------------------------------------------------
  // Python slices

  /** A Python slice `start:stop` with optional bounds (step 1). */
  datatype PySlice = PySlice(start: Option<int>, stop: Option<int>)

  /** Python's normalisation of a slice bound against a length: negative
      bounds count from the end, and both ends are clamped into [0, len]. */
  function Bound(i: int, len: nat): (b: nat)
    ensures b <= len
    ensures 0 <= i <= len ==> b == i
    ensures i < 0 && 0 <= len + i ==> b == len + i
    ensures i > len ==> b == len
    ensures len + i < 0 ==> b == 0
  {
    if i < 0 then (if len + i < 0 then 0 else len + i)
    else if i > len then len
    else i
  }

  /** `s[start:stop]`. */
  function Slice<T>(s: seq<T>, sl: PySlice): seq<T> {
    var lo := if sl.start.Some? then Bound(sl.start.value, |s|) else 0;
    var hi := if sl.stop.Some? then Bound(sl.stop.value, |s|) else |s|;
    if lo <= hi then s[lo..hi] else []
  }

  // ---------------------------------------------------------------------
  // shift

  /** The slicer `shift` applies to the values and the one it applies to
      the axis labels, in that order. */
  function ShiftSlicers(lags: int): (PySlice, PySlice) {
    if lags > 0 then (PySlice(None, Some(-lags)), PySlice(Some(lags), None))
    else if lags == 0 then (PySlice(None, None), PySlice(None, None))
    else (PySlice(Some(-lags), None), PySlice(None, Some(lags)))
  }

  /** How far the label window starts into the old axis. */
  function LabelOffset(lags: int): nat {
    if lags > 0 then lags else 0
  }

  /** How far the value window starts into the old axis. */
  function ValueOffset(lags: int): nat {
    if lags < 0 then -lags else 0
  }

  /** The length an axis of length `n` keeps after a shift by `lags`. */
  function ShiftedLength(n: nat, lags: int): nat {
    if lags >= 0 then (if lags >= n then 0 else n - lags)
    else (if -lags >= n then 0 else n + lags)
  }

  /** The two slicers cut windows of the same length, the label window
      starting `LabelOffset` and the value window `ValueOffset` into `s`. */
  lemma ShiftWindows<T, U>(labels: seq<T>, cells: seq<U>, lags: int)
    requires |labels| == |cells|
    ensures var (vs, ls) := ShiftSlicers(lags);
      && |Slice(labels, ls)| == ShiftedLength(|labels|, lags)
      && |Slice(cells, vs)| == ShiftedLength(|labels|, lags)
      && (forall j :: 0 <= j < ShiftedLength(|labels|, lags) ==>
            Slice(labels, ls)[j] == labels[j + LabelOffset(lags)]
            && Slice(cells, vs)[j] == cells[j + ValueOffset(lags)])
  {
  }

  /** `shift(lags, axis)`: move the values `lags` positions along the major
      or minor axis, dropping the positions shifted out from both the values
      and the labels; any axis argument other than the strings 'major' and
      'minor' raises ValueError. */
  function Shift<V>(p: Panel<V>, lags: int, axis: string): (r: Result<Panel<V>>)
    requires p.Shaped()
    ensures r.Err? <==> axis != "major" && axis != "minor"
    ensures r.Err? ==> r.error == ValueError("Invalid axis")
    ensures r.Ok? ==> r.value.Shaped() && r.value.items == p.items
    ensures axis == "major" ==> (
      && r.Ok?
      && r.value.minor == p.minor
      && |r.value.major| == ShiftedLength(|p.major|, lags)
      && (forall j :: 0 <= j < |r.value.major| ==> r.value.major[j] == p.major[j + LabelOffset(lags)])
      && (forall i, j, k :: 0 <= i < |p.items| && 0 <= j < |r.value.major| && 0 <= k < |p.minor| ==>
            r.value.values[i][j][k] == p.values[i][j + ValueOffset(lags)][k]))
    ensures axis == "minor" ==> (
      && r.Ok?
      && r.value.major == p.major
      && |r.value.minor| == ShiftedLength(|p.minor|, lags)
      && (forall k :: 0 <= k < |r.value.minor| ==> r.value.minor[k] == p.minor[k + LabelOffset(lags)])
      && (forall i, j, k :: 0 <= i < |p.items| && 0 <= j < |p.major| && 0 <= k < |r.value.minor| ==>
            r.value.values[i][j][k] == p.values[i][j][k + ValueOffset(lags)]))
  {
    var (vslicer, islicer) := ShiftSlicers(lags);
    if axis == "major" then
      var major := Slice(p.major, islicer);
      var values := seq(|p.values|, i requires 0 <= i < |p.values| => Slice(p.values[i], vslicer));
      ShiftWindowsAll(p, lags);
      Ok(Panel(p.items, major, p.minor, values))
    else if axis == "minor" then
      var minor := Slice(p.minor, islicer);
      var values := seq(|p.values|, i requires 0 <= i < |p.values| =>
        seq(|p.values[i]|, j requires 0 <= j < |p.values[i]| => Slice(p.values[i][j], vslicer)));
      ShiftWindowsAll(p, lags);
      Ok(Panel(p.items, p.major, minor, values))
    else
      Err(ValueError("Invalid axis"))
  }

  /** `ShiftWindows` for every row of a shaped panel at once. */
  lemma ShiftWindowsAll<V>(p: Panel<V>, lags: int)
    requires p.Shaped()
    ensures forall i :: 0 <= i < |p.items| ==>
      var (vs, ls) := ShiftSlicers(lags);
      |Slice(p.values[i], vs)| == ShiftedLength(|p.major|, lags)
      && forall j :: 0 <= j < ShiftedLength(|p.major|, lags) ==> Slice(p.values[i], vs)[j] == p.values[i][j + ValueOffset(lags)]
    ensures forall i, j :: 0 <= i < |p.items| && 0 <= j < |p.major| ==>
      var (vs, ls) := ShiftSlicers(lags);
      |Slice(p.values[i][j], vs)| == ShiftedLength(|p.minor|, lags)
      && forall k :: 0 <= k < ShiftedLength(|p.minor|, lags) ==> Slice(p.values[i][j], vs)[k] == p.values[i][j][k + ValueOffset(lags)]
    ensures var (vs, ls) := ShiftSlicers(lags);
      && |Slice(p.major, ls)| == ShiftedLength(|p.major|, lags)
      && (forall j :: 0 <= j < ShiftedLength(|p.major|, lags) ==> Slice(p.major, ls)[j] == p.major[j + LabelOffset(lags)])
      && |Slice(p.minor, ls)| == ShiftedLength(|p.minor|, lags)
      && (forall k :: 0 <= k < ShiftedLength(|p.minor|, lags) ==> Slice(p.minor, ls)[k] == p.minor[k + LabelOffset(lags)])
  {
    forall i | 0 <= i < |p.items|
      ensures var (vs, ls) := ShiftSlicers(lags);
        |Slice(p.values[i], vs)| == ShiftedLength(|p.major|, lags)
        && forall j :: 0 <= j < ShiftedLength(|p.major|, lags) ==> Slice(p.values[i], vs)[j] == p.values[i][j + ValueOffset(lags)]
    {
      ShiftWindows(p.major, p.values[i], lags);
    }
    forall i, j | 0 <= i < |p.items| && 0 <= j < |p.major|
      ensures var (vs, ls) := ShiftSlicers(lags);
        |Slice(p.values[i][j], vs)| == ShiftedLength(|p.minor|, lags)
        && forall k :: 0 <= k < ShiftedLength(|p.minor|, lags) ==> Slice(p.values[i][j], vs)[k] == p.values[i][j][k + ValueOffset(lags)]
    {
      ShiftWindows(p.minor, p.values[i][j], lags);
    }
    ShiftWindows(p.major, p.major, lags);
    ShiftWindows(p.minor, p.minor, lags);
  }

  /** A shift by `lags` moves each observation `lags` positions along the
      major axis: the cell that sat at major label `major[j]` is found at
      label `major[j + lags]` afterwards, for every `j` whose target lies on
      the old axis. */
  lemma ShiftMovesByLags<V>(p: Panel<V>, lags: int, i: nat, j: nat, k: nat)
    requires p.Shaped() && i < |p.items| && k < |p.minor|
    requires j < |p.major| && 0 <= j + lags < |p.major|
    ensures var q := Shift(p, lags, "major").value;
      exists t :: 0 <= t < |q.major| && q.major[t] == p.major[j + lags] && q.values[i][t][k] == p.values[i][j][k]
  {
    var q := Shift(p, lags, "major").value;
    var t := j - ValueOffset(lags);
    assert q.major[t] == p.major[j + lags];
  }

  /** A shift by zero lags along either axis changes nothing. */
  lemma ShiftZero<V>(p: Panel<V>, axis: string)
    requires p.Shaped() && (axis == "major" || axis == "minor")
    ensures Shift(p, 0, axis) == Ok(p)
  {
    var q := Shift(p, 0, axis).value;
    assert q.items == p.items && q.major == p.major && q.minor == p.minor;
    forall i | 0 <= i < |p.items| ensures q.values[i] == p.values[i] {
      forall j | 0 <= j < |p.major| ensures q.values[i][j] == p.values[i][j] {
        assert |q.values[i][j]| == |p.values[i][j]|;
        forall k | 0 <= k < |p.minor| ensures q.values[i][j][k] == p.values[i][j][k] {
        }
      }
      assert |q.values[i]| == |p.values[i]|;
    }
    assert |q.values| == |p.values|;
    assert q.values == p.values;
    assert q == p;
  }

  // ---------------------------------------------------------------------
  // Axis permutations

  /** A permutation of the axes: `At(slot)` is the old axis that moves to
      position `slot`. */
  datatype Perm = Perm(at0: Axis, at1: Axis, at2: Axis) {
    predicate Valid() {
      at0 != at1 && at0 != at2 && at1 != at2
    }

    function At(slot: Axis): Axis {
      match slot
      case Items => at0
      case Major => at1
      case Minor => at2
    }

    /** The slot old axis `b` moves to. */
    function SlotOf(b: Axis): (s: Axis)
      requires Valid()
      ensures At(s) == b
    {
      if at0 == b then Items else if at1 == b then Major else Minor
    }
  }

  /** The permutation that undoes `s`. */
  function Inverse(s: Perm): (r: Perm)
    requires s.Valid()
    ensures r.Valid()
    ensures forall a :: r.At(s.At(a)) == a && s.At(r.At(a)) == a
  {
    Perm(s.SlotOf(Items), s.SlotOf(Major), s.SlotOf(Minor))
  }

  /** The permuted grid: position (x0, x1, x2) holds its `Source`. */
  function PermutedValues<V>(p: Panel<V>, s: Perm): Grid3<V>
    requires p.Shaped() && s.Valid()
  {
    var e0, e1, e2 := p.Extent(s.at0), p.Extent(s.at1), p.Extent(s.at2);
    seq(e0, x0 requires 0 <= x0 < e0 =>
      seq(e1, x1 requires 0 <= x1 < e1 =>
        seq(e2, x2 requires 0 <= x2 < e2 => Source(p, s, x0, x1, x2))))
  }

  /** Move old axis `s.At(slot)` to position `slot`, carrying the cells
      along: `ndarray.transpose(axes)` together with the matching axes. */
  function Permute<V>(p: Panel<V>, s: Perm): (r: Panel<V>)
    requires p.Shaped() && s.Valid()
    ensures r.Shaped()
    ensures forall slot :: r.AxisLabels(slot) == p.AxisLabels(s.At(slot))
    ensures forall i, j, k :: 0 <= i < |p.items| && 0 <= j < |p.major| && 0 <= k < |p.minor| ==>
      && Pick(s.at0, i, j, k) < |r.items| && Pick(s.at1, i, j, k) < |r.major| && Pick(s.at2, i, j, k) < |r.minor|
      && r.values[Pick(s.at0, i, j, k)][Pick(s.at1, i, j, k)][Pick(s.at2, i, j, k)] == p.values[i][j][k]
  {
    var r := Panel(p.AxisLabels(s.at0), p.AxisLabels(s.at1), p.AxisLabels(s.at2), PermutedValues(p, s));
    PermuteCells(p, s, r);
    r
  }

  /** Every cell of `p` arrives at its permuted position. */
  lemma PermuteCells<V>(p: Panel<V>, s: Perm, r: Panel<V>)
    requires p.Shaped() && s.Valid()
    requires r == Panel(p.AxisLabels(s.at0), p.AxisLabels(s.at1), p.AxisLabels(s.at2), PermutedValues(p, s))
    ensures r.Shaped()
    ensures forall i, j, k :: 0 <= i < |p.items| && 0 <= j < |p.major| && 0 <= k < |p.minor| ==>
      && Pick(s.at0, i, j, k) < |r.items| && Pick(s.at1, i, j, k) < |r.major| && Pick(s.at2, i, j, k) < |r.minor|
      && r.values[Pick(s.at0, i, j, k)][Pick(s.at1, i, j, k)][Pick(s.at2, i, j, k)] == p.values[i][j][k]
  {
    forall i, j, k | 0 <= i < |p.items| && 0 <= j < |p.major| && 0 <= k < |p.minor|
      ensures && Pick(s.at0, i, j, k) < |r.items| && Pick(s.at1, i, j, k) < |r.major| && Pick(s.at2, i, j, k) < |r.minor|
              && r.values[Pick(s.at0, i, j, k)][Pick(s.at1, i, j, k)][Pick(s.at2, i, j, k)] == p.values[i][j][k]
    {
      SourceOfTarget(p, s, i, j, k);
    }
  }

  /** The cell of `p` that lands at position (x0, x1, x2) when the axes are
      permuted by `s`. */
  function Source<V>(p: Panel<V>, s: Perm, x0: nat, x1: nat, x2: nat): Option<V>
    requires p.Shaped() && s.Valid()
    requires x0 < p.Extent(s.at0) && x1 < p.Extent(s.at1) && x2 < p.Extent(s.at2)
  {
    var i, j, k := Pick(s.SlotOf(Items), x0, x1, x2), Pick(s.SlotOf(Major), x0, x1, x2), Pick(s.SlotOf(Minor), x0, x1, x2);
    assert i < |p.items| && j < |p.major| && k < |p.minor| by {
      var ti, tj, tk := s.SlotOf(Items), s.SlotOf(Major), s.SlotOf(Minor);
      assert s.At(ti) == Items && s.At(tj) == Major && s.At(tk) == Minor;
      assert forall t :: Pick(t, x0, x1, x2) < p.Extent(s.At(t));
    }
    p.values[i][j][k]
  }

  /** The cell at (i, j, k) is the source of its permuted position. */
  lemma SourceOfTarget<V>(p: Panel<V>, s: Perm, i: nat, j: nat, k: nat)
    requires p.Shaped() && s.Valid()
    requires i < |p.items| && j < |p.major| && k < |p.minor|
    ensures Pick(s.at0, i, j, k) < p.Extent(s.at0)
    ensures Pick(s.at1, i, j, k) < p.Extent(s.at1)
    ensures Pick(s.at2, i, j, k) < p.Extent(s.at2)
    ensures Source(p, s, Pick(s.at0, i, j, k), Pick(s.at1, i, j, k), Pick(s.at2, i, j, k)) == p.values[i][j][k]
  {
    assert forall b :: Pick(b, i, j, k) < p.Extent(b);
    var x0, x1, x2 := Pick(s.at0, i, j, k), Pick(s.at1, i, j, k), Pick(s.at2, i, j, k);
    assert forall t :: Pick(t, x0, x1, x2) == Pick(s.At(t), i, j, k);
  }

  /** Permuting by `s` and then by its inverse restores the panel. */
  lemma PermuteInverse<V>(p: Panel<V>, s: Perm)
    requires p.Shaped() && s.Valid()
    ensures Permute(Permute(p, s), Inverse(s)) == p
  {
    var q := Permute(p, s);
    var t := Inverse(s);
    var r := Permute(q, t);
    assert r.items == p.items && r.major == p.major && r.minor == p.minor;
    forall i, j, k | 0 <= i < |p.items| && 0 <= j < |p.major| && 0 <= k < |p.minor|
      ensures r.values[i][j][k] == p.values[i][j][k]
    {
      var x0, x1, x2 := Pick(s.at0, i, j, k), Pick(s.at1, i, j, k), Pick(s.at2, i, j, k);
      assert q.values[x0][x1][x2] == p.values[i][j][k];
      assert x0 < |q.items| && x1 < |q.major| && x2 < |q.minor|;
      assert Pick(t.at0, x0, x1, x2) == i && Pick(t.at1, x0, x1, x2) == j && Pick(t.at2, x0, x1, x2) == k;
    }
    forall i | 0 <= i < |p.items| ensures r.values[i] == p.values[i] {
      forall j | 0 <= j < |p.major| ensures r.values[i][j] == p.values[i][j] {
      }
    }
  }

  /** The permutation that exchanges axes `a` and `b`. */
  function SwapPerm(a: Axis, b: Axis): (s: Perm)
    requires a != b
    ensures s.Valid() && s.At(a) == b && s.At(b) == a
    ensures forall c :: c != a && c != b ==> s.At(c) == c
  {
    var sw := (c: Axis) => if c == a then b else if c == b then a else c;
    Perm(sw(Items), sw(Major), sw(Minor))
  }

  /** An exchange undoes itself. */
  lemma SwapPermSelfInverse(a: Axis, b: Axis)
    requires a != b
    ensures Inverse(SwapPerm(a, b)) == SwapPerm(a, b)
  {
  }

  /** `swapaxes(axis1, axis2)`: exchange two axes and the matching cell
      coordinates; both arguments must resolve and must differ. */
  function SwapAxes<V>(p: Panel<V>, axis1: AxisKey, axis2: AxisKey): (r: Result<Panel<V>>)
    requires p.Shaped()
    ensures r.Ok? <==> Resolve(axis1).Ok? && Resolve(axis2).Ok? && Resolve(axis1).value != Resolve(axis2).value
    ensures Resolve(axis1).Ok? && Resolve(axis2).Ok? && Resolve(axis1).value == Resolve(axis2).value ==>
      r == Err(ValueError("Cannot specify the same axis"))
    ensures r.Ok? ==>
      var (a, b) := (Resolve(axis1).value, Resolve(axis2).value);
      && r.value.Shaped()
      && r.value.AxisLabels(a) == p.AxisLabels(b)
      && r.value.AxisLabels(b) == p.AxisLabels(a)
      && (forall c :: c != a && c != b ==> r.value.AxisLabels(c) == p.AxisLabels(c))
    ensures r.Ok? ==> r.value == Permute(p, SwapPerm(Resolve(axis1).value, Resolve(axis2).value))
  {
    var i :- Resolve(axis1);
    var j :- Resolve(axis2);
    if i == j then Err(ValueError("Cannot specify the same axis"))
    else Ok(Permute(p, SwapPerm(i, j)))
  }

  /** Swapping the same two axes twice restores the panel. */
  lemma SwapAxesTwice<V>(p: Panel<V>, axis1: AxisKey, axis2: AxisKey)
    requires p.Shaped()
    requires SwapAxes(p, axis1, axis2).Ok?
    ensures SwapAxes(SwapAxes(p, axis1, axis2).value, axis1, axis2) == Ok(p)
  {
    var a, b := Resolve(axis1).value, Resolve(axis2).value;
    SwapPermSelfInverse(a, b);
    PermuteInverse(p, SwapPerm(a, b));
  }

  // ---------------------------------------------------------------------
  // transpose

  /** How many of `names` the keyword arguments leave to positional ones. */
  function Unnamed(names: seq<string>, kw: map<string, AxisKey>): nat {
    if |names| == 0 then 0
    else (if names[0] in kw then 0 else 1) + Unnamed(names[1..], kw)
  }

  /** Fill one axis argument per name: the keyword argument when given,
      otherwise the next positional argument, failing when they run out. */
  function AxisArguments(names: seq<string>, args: seq<AxisKey>, kw: map<string, AxisKey>): (r: Result<seq<AxisKey>>)
    ensures r.Err? <==> |args| < Unnamed(names, kw)
    ensures r.Err? ==> r.error == ValueError("not enough arguments specified to transpose!")
    ensures r.Ok? ==> |r.value| == |names|
    ensures r.Ok? ==> forall t :: 0 <= t < |names| && names[t] in kw ==> r.value[t] == kw[names[t]]
    ensures r.Ok? ==> forall t :: 0 <= t < |names| && names[t] !in kw ==>
      Unnamed(names[..t], kw) < |args| && r.value[t] == args[Unnamed(names[..t], kw)]
  {
    if |names| == 0 then Ok([])
    else if names[0] in kw then
      var rest :- AxisArguments(names[1..], args, kw);
      assert forall t :: 0 < t <= |names| ==> names[..t][1..] == names[1..][..t - 1];
      Ok([kw[names[0]]] + rest)
    else if |args| == 0 then Err(ValueError("not enough arguments specified to transpose!"))
    else
      var rest :- AxisArguments(names[1..], args[1..], kw);
      assert forall t :: 0 < t <= |names| ==> names[..t][1..] == names[1..][..t - 1];
      Ok([args[0]] + rest)
  }

  /** The permutation `transpose` is asked for: one axis argument per
      canonical axis name, all resolvable and pairwise distinct. */
  function TransposePerm(args: seq<AxisKey>, kw: map<string, AxisKey>): (r: Result<Perm>)
    ensures |args| < Unnamed(AxisOrders, kw) ==> r == Err(ValueError("not enough arguments specified to transpose!"))
    ensures r.Ok? ==> r.value.Valid()
    ensures r.Ok? ==> (var keys := AxisArguments(AxisOrders, args, kw).value;
      forall slot :: Designates(keys[Number(slot)], r.value.At(slot)))
    ensures AxisArguments(AxisOrders, args, kw).Ok? ==> (var keys := AxisArguments(AxisOrders, args, kw).value;
      forall t :: 0 <= t < 3 && Resolve(keys[t]).Err? ==> r.Err? && r.error.ValueError?)
    ensures AxisArguments(AxisOrders, args, kw).Ok? ==> (var keys := AxisArguments(AxisOrders, args, kw).value;
      Resolve(keys[0]).Ok? && Resolve(keys[1]).Ok? && Resolve(keys[2]).Ok? ==>
        var (a0, a1, a2) := (Resolve(keys[0]).value, Resolve(keys[1]).value, Resolve(keys[2]).value);
        r == (if a0 == a1 || a0 == a2 || a1 == a2 then Err(ValueError("Must specify 3 unique axes"))
              else Ok(Perm(a0, a1, a2))))
    ensures r.Ok? <==> (
      && AxisArguments(AxisOrders, args, kw).Ok?
      && var keys := AxisArguments(AxisOrders, args, kw).value;
         && Resolve(keys[0]).Ok? && Resolve(keys[1]).Ok? && Resolve(keys[2]).Ok?
         && Resolve(keys[0]).value != Resolve(keys[1]).value
         && Resolve(keys[0]).value != Resolve(keys[2]).value
         && Resolve(keys[1]).value != Resolve(keys[2]).value)
  {
    var keys :- AxisArguments(AxisOrders, args, kw);
    var a0 :- Resolve(keys[0]);
    var a1 :- Resolve(keys[1]);
    var a2 :- Resolve(keys[2]);
    if a0 == a1 || a0 == a2 || a1 == a2 then Err(ValueError("Must specify 3 unique axes"))
    else Ok(Perm(a0, a1, a2))
  }

  /** `transpose(*args, **kwargs)`: permute all three axes at once. */
  function Transpose<V>(p: Panel<V>, args: seq<AxisKey>, kw: map<string, AxisKey>): (r: Result<Panel<V>>)
    requires p.Shaped()
    ensures r.Ok? <==> TransposePerm(args, kw).Ok?
    ensures r.Err? ==> r.error.ValueError?
    ensures r.Ok? ==> r.value.Shaped()
    ensures r.Ok? ==> forall slot :: r.value.AxisLabels(slot) == p.AxisLabels(TransposePerm(args, kw).value.At(slot))
    ensures r.Ok? ==> r.value == Permute(p, TransposePerm(args, kw).value)
  {
    var s :- TransposePerm(args, kw);
    Ok(Permute(p, s))
  }

  /** The positional arguments naming the axes of `s` by number. */
  function PositionalArgs(s: Perm): seq<AxisKey> {
    [Numbered(Number(s.at0)), Numbered(Number(s.at1)), Numbered(Number(s.at2))]
  }

  /** A transpose followed by the transpose by the inverse permutation
      restores the panel. */
  lemma TransposeInverse<V>(p: Panel<V>, s: Perm)
    requires p.Shaped() && s.Valid()
    ensures Transpose(p, PositionalArgs(s), map[]) == Ok(Permute(p, s))
    ensures Transpose(Permute(p, s), PositionalArgs(Inverse(s)), map[]) == Ok(p)
  {
    TransposePositional(s);
    TransposePositional(Inverse(s));
    PermuteInverse(p, s);
  }

  /** Three distinct positional axis numbers ask for exactly their permutation. */
  lemma TransposePositional(s: Perm)
    requires s.Valid()
    ensures TransposePerm(PositionalArgs(s), map[]) == Ok(s)
  {
    var keys := AxisArguments(AxisOrders, PositionalArgs(s), map[]);
    assert Unnamed(AxisOrders, map[]) == 3;
    assert keys.Ok?;
    assert Unnamed(AxisOrders[..0], map[]) == 0;
    assert Unnamed(AxisOrders[..1], map[]) == 1;
    assert Unnamed(AxisOrders[..2], map[]) == 2;
    assert keys.value == PositionalArgs(s);
  }
}

=== FILE: results.dfy ===
/** Failure-carrying datatypes shared by every module of the Panel model.

    Python raises exceptions; the model returns them. `Err` carries the
    exception class the Panel code raises together with its message, so a
    contract can say not only THAT an operation fails but HOW.
 */
module Results {

  /** A value that may be absent. In a value grid `None` stands for NaN. */
  datatype Option<+T> = None | Some(value: T)

  /** The Python exception classes the Panel code raises. */
  datatype Error =
    | ValueError(msg: string)
    | TypeError(msg: string)
    | AssertionError(msg: string)
    | KeyError(msg: string)
    | IndexError(msg: string)
    | UnboundLocalError(msg: string)

  /** The outcome of an operation that may raise. */
  datatype Result<+T> = Ok(value: T) | Err(error: Error) {
    predicate IsFailure() {
      Err?
    }

    function PropagateFailure<U>(): Result<U>
      requires Err?
    {
      Err(error)
    }

    function Extract(): T
      requires Ok?
    {
      value
    }
  }
}

=== FILE: seqs.dfy ===
/** Generic facts about sequences used by the axis algebra: distinctness,
    order-preserving subsequences, filtering and row-major flattening. */
module Seqs {

  /** No element occurs twice. */
  predicate Distinct<T(==)>(xs: seq<T>) {
    forall i, j :: 0 <= i < j < |xs| ==> xs[i] != xs[j]
  }

  /** A non-empty sequence holds its first element. */
  lemma HeadIn<T>(s: seq<T>)
    ensures |s| > 0 ==> s[0] in s
  {
  }

  /** `s` is obtained from `t` by deleting elements, keeping the order. */
  predicate Subseq<T(==)>(s: seq<T>, t: seq<T>)
    decreases |t|
  {
    if |s| == 0 then true
    else if |t| == 0 then false
    else if s[0] == t[0] then Subseq(s[1..], t[1..])
    else Subseq(s, t[1..])
  }

  /** A subsequence holds nothing its super-sequence does not. */
  lemma {:induction false} SubseqElements<T>(s: seq<T>, t: seq<T>)
    requires Subseq(s, t)
    ensures forall i :: 0 <= i < |s| ==> s[i] in t
    decreases |t|
  {
    if |s| == 0 {
    } else if s[0] == t[0] {
      SubseqElements(s[1..], t[1..]);
      assert forall i :: 0 < i < |s| ==> s[i] == s[1..][i - 1];
    } else {
      SubseqElements(s, t[1..]);
    }
  }

  /** A subsequence of a sequence without repeats has no repeats either. */
  lemma {:induction false} SubseqDistinct<T>(s: seq<T>, t: seq<T>)
    requires Subseq(s, t) && Distinct(t)
    ensures Distinct(s)
    decreases |t|
  {
    if |s| == 0 {
    } else if s[0] == t[0] {
      SubseqDistinct(s[1..], t[1..]);
      SubseqElements(s[1..], t[1..]);
      assert s[0] !in t[1..];
      forall i, j | 0 <= i < j < |s|
        ensures s[i] != s[j]
      {
        if i == 0 {
          assert s[j] == s[1..][j - 1];
        } else {
          assert s[i] == s[1..][i - 1] && s[j] == s[1..][j - 1];
        }
      }
    } else {
      SubseqDistinct(s, t[1..]);
    }
  }

  /** Dropping the first element of a subsequence keeps it a subsequence. */
  lemma {:induction false} SubseqTail<T>(s: seq<T>, t: seq<T>)
    requires Subseq(s, t) && |s| > 0
    ensures Subseq(s[1..], t)
    decreases |t|
  {
    if s[0] == t[0] {
      if |s| > 1 {
        SubseqSkip(s[1..], t);
      }
    } else {
      SubseqTail(s, t[1..]);
      if |s| > 1 {
        SubseqSkip(s[1..], t);
      }
    }
  }

  /** A subsequence of the tail of `t` is a subsequence of `t`. */
  lemma {:induction false} SubseqSkip<T>(s: seq<T>, t: seq<T>)
    requires |t| > 0 && Subseq(s, t[1..])
    ensures Subseq(s, t)
    decreases |t|, 1
  {
    if |s| > 0 && s[0] == t[0] {
      SubseqTail(s, t[1..]);
    }
  }

  /** The elements of `s` that satisfy `keep`, in their original order. */
  function Filter<T(==)>(s: seq<T>, keep: T -> bool): (r: seq<T>)
    ensures |r| <= |s|
    ensures forall i :: 0 <= i < |r| ==> keep(r[i])
    ensures forall i :: 0 <= i < |s| && keep(s[i]) ==> s[i] in r
    ensures Subseq(r, s)
  {
    if |s| == 0 then []
    else if keep(s[0]) then [s[0]] + Filter(s[1..], keep)
    else Filter(s[1..], keep)
  }

  /** Filtering distributes over concatenation. */
  lemma {:induction false} FilterAppend<T>(a: seq<T>, b: seq<T>, keep: T -> bool)
    ensures Filter(a + b, keep) == Filter(a, keep) + Filter(b, keep)
    decreases |a|
  {
    if |a| == 0 {
      assert a + b == b;
    } else {
      assert (a + b)[1..] == a[1..] + b;
      FilterAppend(a[1..], b, keep);
    }
  }

  /** How many elements of `s` satisfy `keep`. */
  function Count<T>(s: seq<T>, keep: T -> bool): (n: nat)
    ensures n <= |s|
    ensures n == |s| <==> forall i :: 0 <= i < |s| ==> keep(s[i])
    ensures n > 0 <==> exists i :: 0 <= i < |s| && keep(s[i])
  {
    if |s| == 0 then 0
    else
      var rest := Count(s[1..], keep);
      assert forall i :: 0 < i < |s| ==> s[i] == s[1..][i - 1];
      assert forall i :: 0 <= i < |s| - 1 ==> s[1..][i] == s[i + 1];
      (if keep(s[0]) then 1 else 0) + rest
  }

  /** Counting along a concatenation adds up. */
  lemma {:induction false} CountAppend<T>(a: seq<T>, b: seq<T>, keep: T -> bool)
    ensures Count(a + b, keep) == Count(a, keep) + Count(b, keep)
    decreases |a|
  {
    if |a| == 0 {
      assert a + b == b;
    } else {
      assert (a + b)[1..] == a[1..] + b;
      CountAppend(a[1..], b, keep);
    }
  }

  /** The number of elements a filter keeps is the count of `keep`. */
  lemma {:induction false} FilterLength<T>(s: seq<T>, keep: T -> bool)
    ensures |Filter(s, keep)| == Count(s, keep)
    decreases |s|
  {
    if |s| > 0 {
      FilterLength(s[1..], keep);
    }
  }

  /** `xs[mask]`: the elements whose mask entry is set, in order. */
  function Compress<T(==)>(xs: seq<T>, mask: seq<bool>): (r: seq<T>)
    requires |xs| == |mask|
    ensures Subseq(r, xs)
    ensures forall t :: 0 <= t < |xs| && mask[t] ==> xs[t] in r
    ensures forall i :: 0 <= i < |r| ==> exists t :: 0 <= t < |xs| && mask[t] && xs[t] == r[i]
  {
    if |xs| == 0 then []
    else
      var rest := Compress(xs[1..], mask[1..]);
      assert forall t :: 0 < t < |xs| ==> xs[t] == xs[1..][t - 1] && mask[t] == mask[1..][t - 1];
      if mask[0] then
        var r := [xs[0]] + rest;
        assert forall i :: 0 < i < |r| ==> r[i] == rest[i - 1];
        r
      else
        SubseqSkip(rest, xs);
        rest
  }

  /** On a sequence without repeats, an element survives `xs[mask]`
      exactly when its mask entry is set. */
  lemma CompressDistinct<T>(xs: seq<T>, mask: seq<bool>, t: nat)
    requires |xs| == |mask| && Distinct(xs) && t < |xs|
    ensures xs[t] in Compress(xs, mask) <==> mask[t]
  {
    var r := Compress(xs, mask);
    if xs[t] in r {
      var i :| 0 <= i < |r| && r[i] == xs[t];
      var u :| 0 <= u < |xs| && mask[u] && xs[u] == r[i];
      assert u == t;
    }
  }

  /** A mask with every entry set keeps everything. */
  lemma {:induction false} CompressAll<T>(xs: seq<T>, mask: seq<bool>)
    requires |xs| == |mask| && forall t :: 0 <= t < |mask| ==> mask[t]
    ensures Compress(xs, mask) == xs
    decreases |xs|
  {
    if |xs| > 0 {
      CompressAll(xs[1..], mask[1..]);
      assert Compress(xs, mask) == [xs[0]] + Compress(xs[1..], mask[1..]);
      assert xs == [xs[0]] + xs[1..];
    }
  }

  /** Every position moved one place up. */
  function ShiftUp(s: seq<nat>): (r: seq<nat>)
    ensures |r| == |s|
    ensures forall i :: 0 <= i < |s| ==> r[i] == s[i] + 1
  {
    seq(|s|, i requires 0 <= i < |s| => s[i] + 1)
  }

  /** The positions whose mask entry is set, in ascending order. */
  function Kept(mask: seq<bool>): (pos: seq<nat>)
    ensures |pos| <= |mask|
    ensures forall r :: 0 <= r < |pos| ==> pos[r] < |mask| && mask[pos[r]]
    ensures forall r, s :: 0 <= r < s < |pos| ==> pos[r] < pos[s]
  {
    if |mask| == 0 then []
    else
      var rest := Kept(mask[1..]);
      var shifted := ShiftUp(rest);
      assert forall r :: 0 <= r < |rest| ==> shifted[r] < |mask| && mask[shifted[r]] by {
        forall r | 0 <= r < |rest| ensures shifted[r] < |mask| && mask[shifted[r]] {
          assert mask[1..][rest[r]] == mask[rest[r] + 1];
        }
      }
      if mask[0] then
        var pos := [0] + shifted;
        assert forall r :: 0 < r < |pos| ==> pos[r] == shifted[r - 1];
        pos
      else shifted
  }

  /** Every position whose mask entry is set is kept. */
  lemma {:induction false} KeptComplete(mask: seq<bool>, t: nat)
    requires t < |mask| && mask[t]
    ensures t in Kept(mask)
    decreases |mask|
  {
    if t > 0 {
      assert mask[1..][t - 1] == mask[t];
      KeptComplete(mask[1..], t - 1);
      var rest := Kept(mask[1..]);
      var r :| 0 <= r < |rest| && rest[r] == t - 1;
      var pos := Kept(mask);
      if mask[0] {
        assert pos[r + 1] == t;
      } else {
        assert pos[r] == t;
      }
    }
  }

  /** The rest of `xs[mask]` gathers `xs` at the shifted kept positions of
      the rest of the mask. */
  lemma CompressKeptTail<T>(xs: seq<T>, mask: seq<bool>)
    requires |xs| == |mask| && |xs| > 0
    requires |Compress(xs[1..], mask[1..])| == |Kept(mask[1..])|
    requires forall r :: 0 <= r < |Kept(mask[1..])| ==> Compress(xs[1..], mask[1..])[r] == xs[1..][Kept(mask[1..])[r]]
    ensures forall r :: 0 <= r < |Kept(mask[1..])| ==> Compress(xs[1..], mask[1..])[r] == xs[ShiftUp(Kept(mask[1..]))[r]]
  {
    var rest := Kept(mask[1..]);
    forall r | 0 <= r < |rest| ensures Compress(xs[1..], mask[1..])[r] == xs[ShiftUp(rest)[r]] {
      assert xs[1..][rest[r]] == xs[rest[r] + 1];
    }
  }

  /** A set first entry is gathered first, ahead of the rest. */
  lemma CompressKeptHead<T>(xs: seq<T>, mask: seq<bool>)
    requires |xs| == |mask| && |xs| > 0 && mask[0]
    requires |Compress(xs[1..], mask[1..])| == |Kept(mask[1..])|
    requires forall r :: 0 <= r < |Kept(mask[1..])| ==> Compress(xs[1..], mask[1..])[r] == xs[ShiftUp(Kept(mask[1..]))[r]]
    ensures |Compress(xs, mask)| == |Kept(mask)|
    ensures forall r :: 0 <= r < |Kept(mask)| ==> Compress(xs, mask)[r] == xs[Kept(mask)[r]]
  {
    var c, shifted := Compress(xs[1..], mask[1..]), ShiftUp(Kept(mask[1..]));
    var pos, out := Kept(mask), Compress(xs, mask);
    assert out == [xs[0]] + c;
    assert pos == [0] + shifted;
    forall r | 0 <= r < |pos| ensures out[r] == xs[pos[r]] {
      if r > 0 {
        assert out[r] == c[r - 1] && pos[r] == shifted[r - 1];
      }
    }
  }

  /** A clear first entry is skipped. */
  lemma CompressKeptSkip<T>(xs: seq<T>, mask: seq<bool>)
    requires |xs| == |mask| && |xs| > 0 && !mask[0]
    ensures Compress(xs, mask) == Compress(xs[1..], mask[1..])
    ensures Kept(mask) == ShiftUp(Kept(mask[1..]))
  {
  }

  /** `xs[mask]` gathers `xs` at the kept positions. */
  lemma {:induction false} CompressKept<T>(xs: seq<T>, mask: seq<bool>)
    requires |xs| == |mask|
    ensures |Compress(xs, mask)| == |Kept(mask)|
    ensures forall r :: 0 <= r < |Kept(mask)| ==> Compress(xs, mask)[r] == xs[Kept(mask)[r]]
    decreases |xs|
  {
    if |xs| > 0 {
      CompressKept(xs[1..], mask[1..]);
      CompressKeptTail(xs, mask);
      if mask[0] {
        CompressKeptHead(xs, mask);
      } else {
        CompressKeptSkip(xs, mask);
      }
    }
  }

  /** Row-major concatenation of the rows of `s`. */
  function Flatten<T>(s: seq<seq<T>>): seq<T>
  {
    if |s| == 0 then [] else s[0] + Flatten(s[1..])
  }

  /** Every row has exactly `k` elements. */
  predicate Uniform<T>(s: seq<seq<T>>, k: nat) {
    forall j :: 0 <= j < |s| ==> |s[j]| == k
  }

  /** Flattening rows of width `k` gives `k` elements per row. */
  lemma {:induction false} FlattenLength<T>(s: seq<seq<T>>, k: nat)
    requires Uniform(s, k)
    ensures |Flatten(s)| == |s| * k
    decreases |s|
  {
    if |s| > 0 {
      FlattenLength(s[1..], k);
      assert |s| * k == k + (|s| - 1) * k;
    }
  }

  /** Flattening rows of width `k` lays element (j, c) at position j*k + c. */
  lemma {:induction false} FlattenAt<T>(s: seq<seq<T>>, k: nat, j: nat, c: nat)
    requires Uniform(s, k) && j < |s| && c < k
    ensures j * k + c < |Flatten(s)| && Flatten(s)[j * k + c] == s[j][c]
    decreases j
  {
    FlattenLength(s, k);
    if j > 0 {
      FlattenAt(s[1..], k, j - 1, c);
      assert j * k + c == k + ((j - 1) * k + c);
      assert s[1..][j - 1] == s[j];
    }
  }

  /** Position `r` of a row-major flattening of rows of width `k` holds
      element (r / k, r % k). */
  lemma FlattenAtQuotient<T>(s: seq<seq<T>>, k: nat, r: nat)
    requires Uniform(s, k) && r < |s| * k
    ensures k > 0 && r / k < |s| && r % k < k
    ensures |Flatten(s)| == |s| * k
    ensures Flatten(s)[r] == s[r / k][r % k]
  {
    assert k > 0;
    var j, c := r / k, r % k;
    assert r == j * k + c;
    FlattenLength(s, k);
    FlattenAt(s, k, j, c);
  }

}
